=== FILE: README.md ===
# Chirp-mass trigger scan and neural spline flow construction

This project models two parts of the dingo gravitational-wave inference code
in Dafny and proves properties about them.

**The chirp-mass trigger scan** is in `binary_neutron_stars/scripts/chirp_mass_scan.py`.
A GNPE network is conditioned on a chirp-mass proxy. The scan:

- builds a grid of proxies that covers the chirp-mass prior, and optionally a grid of trial time offsets;
- for every offset, shifts a freshly loaded event dataset;
- builds one batched network input in which each proxy fills a block of `num_samples` rows;
- turns the sampled offsets back into absolute chirp masses;
- drops samples outside the prior's support and scores the rest by likelihood;
- reports as the trigger the first sample with maximal log-likelihood;
- concatenates the scored tables of all offsets.

**The neural spline flow** is in `dingo/core/nn/nsf.py`. The flow's transforms
are modelled as descriptors: what the builders pass to the flow library,
including:

- the alternating coupling masks;
- the defaults of the base transform's keyword arguments;
- the step structure of permutation, LU map and spline transform, closed by a trailing linear transform;
- the stored hyperparameters;
- how `FlowWrapper` routes the context through an optional embedding net.

Modules:

- `Results`: `Option`, `Result` and the error cases of the source.
- `Priors`: prior bounds and the log-prior (`-inf` or finite).
- `Numerics`: `math.ceil`, `int` truncation, `numpy.linspace`, `numpy.repeat`, broadcasting addition.
- `ChirpMassScan`: the chirp-mass grid, the batched network input, and the chirp-mass reconstruction.
- `TimeScan`: the time-offset grid and the dataset shift.
- `TriggerSelection`: the prior filter, `argmax`, trigger extraction, and accumulation of the output table.
- `ScanPipeline`: the loop of `main`.
- `Nsf`: the flow builders and `FlowWrapper`.

Some external steps are passed in as function parameters:

- the flow sampler;
- the preprocessing transform;
- the phase rotation of the time shift;
- the prior's `ln_prob`;
- the likelihood;
- the embedding net.

Python exceptions become `Failure` values of `Result`. Floats are modelled as
unbounded reals.

### Behaviours of the code worth knowing

- **Chirp-mass grid.** The grid has `ceil(prior range / kernel range * overlap)`
  points, spread from `prior.min - kernel.min` to `prior.max - kernel.max`.
  For prior [0, 10], kernel [-0.5, 0.5] and overlap 2 this gives 20 points
  from 0.5 to 9.5, spaced 9/19 apart (`GridExample`).
- **No survivors.** If the prior cut leaves no sample, the run ends with an
  exception (`ArgMax`, `SelectTrigger`, `ScanIteration`).
- **Time grid.** The offset count is `int(range / step) + 1`, which truncates.
  So neighbouring offsets are at least one step apart, and with overlap
  factor 1 the trial windows can leave gaps (`TimeGridSpacingAtLeastStep`,
  `TimeGridGapExample`).
- **Unknown transform tag.** `create_transform` with zero or negative
  `num_flow_steps` never builds a base transform, so an unknown
  `base_transform_type` raises only when there is at least one step.
- **Builder without arguments.** `create_nsf_model` with an embedding builder
  but `embedding_net_kwargs=None` fails when it unpacks `None`
  (`MissingEmbeddingKwargs`).

## Model

| member | source | states |
|---|---|---|
| Numerics.Ceil | binary_neutron_stars/scripts/chirp_mass_scan.py:91 | the result is the least integer not below the input |
| Numerics.Trunc | binary_neutron_stars/scripts/chirp_mass_scan.py:195 | the result rounds toward zero: within one below a non-negative input, within one above a negative input |
| Numerics.Linspace | binary_neutron_stars/scripts/chirp_mass_scan.py:88-92 | fails exactly for a negative count; otherwise has that many points, starts at `start`, ends at `stop` when there are two or more, and point `i` is `start + i * step` |
| Numerics.LinspaceUniform | binary_neutron_stars/scripts/chirp_mass_scan.py:88-92 | neighbouring points of a linspace differ by exactly one step |
| Numerics.Repeat | binary_neutron_stars/scripts/chirp_mass_scan.py:237 | repeating each element `k` times multiplies the length by `k` |
| Numerics.RepeatIndex | binary_neutron_stars/scripts/chirp_mass_scan.py:237 | element `j` of the repeated array is element `j / k` of the original |
| Numerics.AddBroadcast | binary_neutron_stars/scripts/chirp_mass_scan.py:237 | equal lengths add elementwise; a length-one operand is broadcast; any other shape pair is a shape error |
| ChirpMassScan.ScanChirpMasses | binary_neutron_stars/scripts/chirp_mass_scan.py:79-93 | a zero kernel width is a division error; a ratio of -1 or less is a negative-count error; otherwise the point count is the ceiling of the ratio, the grid starts at `prior.min - kernel.min` and ends at `prior.max - kernel.max` |
| ChirpMassScan.ScanChirpMassesUniform | binary_neutron_stars/scripts/chirp_mass_scan.py:88-92 | neighbouring proxies are equally spaced, by the linspace step between the grid ends |
| ChirpMassScan.GridSpacing | binary_neutron_stars/scripts/chirp_mass_scan.py:85-92 | the proxy spacing is (prior width - kernel width) / (points - 1) |
| ChirpMassScan.GridExample | binary_neutron_stars/scripts/chirp_mass_scan.py:85-92 | prior [0,10], kernel [-0.5,0.5], overlap 2 give 20 proxies from 0.5 to 9.5, spaced 9/19 |
| ChirpMassScan.GridCoversPrior | binary_neutron_stars/scripts/chirp_mass_scan.py:85-92 | for a proper prior and kernel and overlap at least 1, every chirp mass in the prior lies in the kernel window of some proxy |
| ChirpMassScan.Inject | binary_neutron_stars/scripts/chirp_mass_scan.py:97 | the transform input carries the event data unchanged, with the grid value as both chirp mass and proxy |
| ChirpMassScan.GenerateDataForScan | binary_neutron_stars/scripts/chirp_mass_scan.py:96-107 | an empty grid fails on its first element; a negative sample count fails at allocation; otherwise row `r` of both outputs is the transform output for grid value `r / num_samples` |
| ChirpMassScan.ReconstructChirpMasses | binary_neutron_stars/scripts/chirp_mass_scan.py:236-237 | fails exactly when the repeated grid and the offsets have incompatible shapes; with one offset per input row, the chirp mass of sample `r` is the proxy of the block row `r` was generated from, plus its offset |
| TimeScan.TimeTranslateEventDataset | binary_neutron_stars/scripts/chirp_mass_scan.py:174-181 | fails exactly for zero duration; otherwise the event time drops by `dt`, the other settings and the ASDs are kept, and each detector's strain is translated on a domain with `delta_f = 1/T` |
| TimeScan.TranslationsCompose | binary_neutron_stars/scripts/chirp_mass_scan.py:181 | a shift by `a` then by `b` leaves the same settings as one shift by `a + b` |
| TimeScan.TranslationUndone | binary_neutron_stars/scripts/chirp_mass_scan.py:174-181 | shifting by `dt` and then by `-dt` restores the settings and the set of detectors |
| TimeScan.ScanTimes | binary_neutron_stars/scripts/chirp_mass_scan.py:184-197 | no range gives the single untranslated run `[None]`; a range gives the offsets of that range |
| TimeScan.RangeTimes | binary_neutron_stars/scripts/chirp_mass_scan.py:188-197 | a zero step is a division error; a ratio of -2 or less is a negative-count error; otherwise there are `int(ratio) + 1` offsets, the first `t_min`, the last `t_max`, and offset `i` at `t_min + i * (t_max - t_min) / (count - 1)` |
| TimeScan.ScanOffsets | binary_neutron_stars/scripts/chirp_mass_scan.py:196-197 | a negative count fails; otherwise the offsets are `numpy.linspace(t_min, t_max, n)`: `n` of them, from `t_min` to `t_max`, offset `i` at `t_min + i * step` |
| TimeScan.TimeGridSpacingAtLeastStep | binary_neutron_stars/scripts/chirp_mass_scan.py:192-196 | for an ascending range, neighbouring offsets are at least one prior width / overlap apart |
| TimeScan.TimeGridExample | binary_neutron_stars/scripts/chirp_mass_scan.py:184-197 | prior width 0.2 and range (-0.1, 0.1) give offsets -0.1 and 0.1 |
| TimeScan.TimeGridGapExample | binary_neutron_stars/scripts/chirp_mass_scan.py:192-196 | prior width 0.2 and range (0, 0.3) give offsets 0 and 0.3, which are further apart than the window width |
| TriggerSelection.SupportIndices | binary_neutron_stars/scripts/chirp_mass_scan.py:248 | the indices are in bounds, strictly increasing, and are exactly the positions of finite log-prior |
| TriggerSelection.LogPriors | binary_neutron_stars/scripts/chirp_mass_scan.py:247 | one log-prior per row, that of the row's sample |
| TriggerSelection.Gather | binary_neutron_stars/scripts/chirp_mass_scan.py:249-250 | position `j` of the result is the row at index `j` |
| TriggerSelection.PriorFilter | binary_neutron_stars/scripts/chirp_mass_scan.py:247-250 | the kept rows and log-priors stay aligned, every kept row has the finite log-prior stored next to it, and no rows are added |
| TriggerSelection.PriorFilterKeepsFiniteInOrder | binary_neutron_stars/scripts/chirp_mass_scan.py:247-250 | the index-based cut keeps exactly the rows of finite log-prior, in their original order |
| TriggerSelection.ArgMax | binary_neutron_stars/scripts/chirp_mass_scan.py:260 | fails exactly on an empty array; otherwise returns a maximal position with no maximal position before it |
| TriggerSelection.FirstMaxUnique | binary_neutron_stars/scripts/chirp_mass_scan.py:260-265 | the first maximal position is unique, so the three argmax calls pick the same row |
| TriggerSelection.ArgMaxExample | binary_neutron_stars/scripts/chirp_mass_scan.py:260 | log-likelihoods 1, 5, 3, 9, 2 select row 3 |
| TriggerSelection.LogLikelihoods | binary_neutron_stars/scripts/chirp_mass_scan.py:253-255 | the likelihood column has one entry per row, that row's log-likelihood |
| TriggerSelection.SelectTrigger | binary_neutron_stars/scripts/chirp_mass_scan.py:259-266 | fails exactly on an empty table; otherwise chirp mass, time and SNR are read from the first row of maximal log-likelihood, and the GPS time is event time plus coalescence time |
| TriggerSelection.LogProbs | binary_neutron_stars/scripts/chirp_mass_scan.py:256 | the posterior score is the elementwise sum of log-likelihood and log-prior for aligned columns, and a shape error exactly for incompatible lengths |
| TriggerSelection.RankingIgnoresLogPrior | binary_neutron_stars/scripts/chirp_mass_scan.py:256-260 | example: log-likelihoods 1, 2 with log-priors 5, 0 give the trigger at row 1, while the posterior score 6, 2 peaks at row 0 |
| TriggerSelection.AppendTable | binary_neutron_stars/scripts/chirp_mass_scan.py:287-290 | the output table always exists afterwards; the first table becomes the output, and a later one is appended after the existing rows, which stay in place |
| TriggerSelection.Accumulate | binary_neutron_stars/scripts/chirp_mass_scan.py:287-290 | the output stays absent exactly when it started absent and no table came; an existing output is a prefix of the result |
| TriggerSelection.AccumulateFrom | binary_neutron_stars/scripts/chirp_mass_scan.py:287-290 | once the output table exists, further tables are appended after it in order |
| TriggerSelection.AccumulateIsConcat | binary_neutron_stars/scripts/chirp_mass_scan.py:287-290 | the output table is absent exactly when there were no tables, and is otherwise their concatenation in order |
| TriggerSelection.AccumulateSnoc | binary_neutron_stars/scripts/chirp_mass_scan.py:287-290 | one more loop iteration extends the accumulated table by that iteration's table |
| ScanPipeline.SampleTable | binary_neutron_stars/scripts/chirp_mass_scan.py:234-237 | on success there is one sample per draw, with the draw's time and other parameters |
| ScanPipeline.SampleTableChirpMasses | binary_neutron_stars/scripts/chirp_mass_scan.py:234-246 | with one draw per input row the table is built, and sample `j`'s chirp mass is the proxy of block `j / num_samples` plus the drawn offset |
| ScanPipeline.DatasetFor | binary_neutron_stars/scripts/chirp_mass_scan.py:218-222 | without an offset the dataset is the loaded one; with an offset it is the loaded dataset time-translated by that offset, which fails for zero duration |
| ScanPipeline.ScoreRows | binary_neutron_stars/scripts/chirp_mass_scan.py:252-286 | each kept sample gets its likelihood and SNR and the dataset's event time, in order |
| ScanPipeline.ScanIteration | binary_neutron_stars/scripts/chirp_mass_scan.py:218-266 | zero duration with an offset, an empty grid or a negative sample count fails; the iteration succeeds exactly when the shift is defined, the network input can be built, the draws for it form a sample table and some sample has finite prior; on success the network input is laid out block by block on the shifted dataset, the sample table is built from the draws for exactly that input, the rows are its finite-prior samples in order, each scored on the shifted dataset with the shifted event time, and chirp mass, time and SNR of the trigger are read from the first maximal-likelihood row |
| ScanPipeline.ScanRun | binary_neutron_stars/scripts/chirp_mass_scan.py:213-290 | succeeds exactly when both grids are built and the loop body gets through for every time offset; on success there is one iteration per time offset with exactly the outcome of the loop body for that offset on the dataset as loaded, and the output table is the accumulation of the iterations' tables |
| Nsf.WithDefaults | dingo/core/nn/nsf.py:35-46 | a given keyword wins; each missing keyword takes its own signature default, whatever else is given: hidden size 512, 2 blocks, relu, dropout 0.0, no batch norm, 8 bins, tail bound 1.0, no unconditional transform, rq-coupling |
| Nsf.ExplicitSettingsKept | dingo/core/nn/nsf.py:35-46 | passing every setting explicitly yields exactly those settings |
| Nsf.CreateLinearTransform | dingo/core/nn/nsf.py:17-32 | a two-part chain: a random permutation, then an LU map initialised to the identity, both of the parameter width |
| Nsf.LinearTransformShape | dingo/core/nn/nsf.py:29-32 | applied in order, the linear transform is exactly permutation then LU map, both of the parameter width |
| Nsf.AlternatingBinaryMask | dingo/core/nn/nsf.py:101-102 | the mask has one entry per feature, starts with 1 when `even` and with 0 otherwise, and neighbouring entries alternate between 1 and 0 |
| Nsf.CreateBaseTransform | dingo/core/nn/nsf.py:35-141 | an unknown tag fails; coupling uses mask `[1]` for one feature and otherwise the alternating mask of index parity; autoregressive uses residual blocks without a random mask; both have linear tails and pass on the bins, tail bound, context size, hidden size, block count, activation, dropout probability and batch norm |
| Nsf.BaseTransformWidth | dingo/core/nn/nsf.py:97-138 | a base transform acts on all parameter features |
| Nsf.CouplingMasksAlternate | dingo/core/nn/nsf.py:97-102 | for two or more features, consecutive coupling steps have complementary masks |
| Nsf.FlowSteps | dingo/core/nn/nsf.py:171-181 | the steps fail exactly when at least one is built with an unknown tag; step `j` is the linear transform followed by base transform `i + j` |
| Nsf.CreateTransform | dingo/core/nn/nsf.py:144-187 | fails exactly for a positive step count with an unknown tag; otherwise `max(n,0)` steps, each linear then base transform `i`, followed by one linear transform |
| Nsf.TransformWidth | dingo/core/nn/nsf.py:144-187 | every transform of the flow acts on the parameter width |
| Nsf.TransformLeaves | dingo/core/nn/nsf.py:154-157 | applied in order, the flow is permutation, LU map and base transform `i` for each step, then a final permutation and LU map, `3n + 2` transforms in all |
| Nsf.CreateNsfModel | dingo/core/nn/nsf.py:227-280 | a builder without arguments fails; otherwise success matches the transform's; the model has the transform, a standard normal of the input width, the built embedding net exactly when a builder is given, and the five hyperparameters |
| Nsf.ModelRebuiltFromHyperparams | dingo/core/nn/nsf.py:269-278 | building again from the stored hyperparameters with the same builder yields the same model |
| Nsf.ConditioningOf | dingo/core/nn/nsf.py:211-214 | the context goes through the embedding net exactly when there is one, and is passed raw otherwise |
| Nsf.LogProb | dingo/core/nn/nsf.py:211-215 | the flow's log-density of `y` under the raw context without an embedding net, under the embedded context with one |
| Nsf.Sample | dingo/core/nn/nsf.py:217-221 | the flow's samples under the same conditioning as the log-density |
| Nsf.Forward | dingo/core/nn/nsf.py:223-224 | `forward` is the flow's log-density under the wrapper's conditioning |

## Left out

- The flow sampler: `model.sample` draws at random. `drawSamples` is a fixed function of the network input, so the model covers one realisation of the draws, whichever the sampler produced.
- Numerics and neural networks of the flow library: spline evaluation, LU factorisation, residual nets, activations, dropout and batch norm. Transforms are descriptors, and `log_prob`/`sample` of the flow are function parameters.
- The random draw of `RandomPermutation`'s order: the descriptor records only the width.
- `torch.squeeze` in `FlowWrapper.sample`: the shape change is left to the `flowSample` parameter.
- `get_activation_function_from_string`: the activation is kept as its name, so an unknown name is not an error here.
- `create_nsf_with_rb_projection_embedding_net`: it only composes `create_nsf_model` with an embedding net that is not part of this model.
- `get_transforms`, `build_prior_and_likelihood`, `PosteriorModel`, `EventDataset` loading, and the likelihood and its multiprocessing: these are function parameters or fixed inputs.
- `FrequencyDomain.time_translate_data`: the phase rotation is the `translate` parameter.
- Argument parsing, printing, timing, plotting, and the pickled output file. This includes the crash when saving with no output table, which happens when the time grid is empty.
- IEEE floating point: reals are unbounded and exact. NaN log-priors or likelihoods and infinite ratios are not modelled.
- Keyword arguments: an unrecognised key in `base_transform_kwargs`, or a `context_dim` key inside it, raises `TypeError` in the source. `BaseTransformKwargs` has no field for such keys.
- Nsf.CreateBaseTransform: the parameter width is a natural number, because a negative width fails inside the flow library, which is not modelled. The same holds for `FlowSteps`, `CreateTransform` and `CreateNsfModel`.
- ChirpMassScan.ReconstructChirpMasses: the sample count is a natural number, because a negative count has already failed in `GenerateDataForScan`.
- ScanPipeline.ScanIteration: when the prior cut leaves no sample, the model fails at the empty `argmax`. In the source, `log_likelihood_multi(...).T` may already raise when it unpacks an empty result. Which call raises is left to the likelihood, which is not modelled.
- ScanPipeline.ScanRun: the whole run stops at the first failing iteration, as the exception does in the source. Partial results are not returned.

=== FILE: chirp_mass_scan.dfy ===
/** The chirp-mass scan of `binary_neutron_stars/scripts/chirp_mass_scan.py`:
    the grid of chirp-mass proxy values, the batched network input built from
    it, and the reconstruction of absolute chirp masses from the sampled
    offsets. */
module ChirpMassScan {
  import opened Results
  import opened Numerics
  import opened Priors

  /** The chirp-mass proxies scanned: `ceil(prior range / kernel range * overlapFactor)`
      points from `prior.minimum - kernel.minimum` to `prior.maximum - kernel.maximum`. */
  function ScanChirpMasses(prior: Bounds, kernel: Bounds, overlapFactor: real): (r: Result<seq<real>>)
    ensures kernel.Range() == 0.0 ==> r == Failure(ZeroDivision)
    ensures kernel.Range() != 0.0 ==>
      var x := prior.Range() / kernel.Range() * overlapFactor;
      && (x <= -1.0 <==> r.Failure?)
      && (r.Failure? ==> r.error == NegativeCount)
      && (r.Success? ==> |r.value| as real - 1.0 < x <= |r.value| as real)
    ensures r.Success? && |r.value| >= 1 ==> r.value[0] == prior.minimum - kernel.minimum
    ensures r.Success? && |r.value| >= 2 ==> r.value[|r.value| - 1] == prior.maximum - kernel.maximum
  {
    if kernel.Range() == 0.0 then Failure(ZeroDivision)
    else
      Linspace(prior.minimum - kernel.minimum, prior.maximum - kernel.maximum,
               Ceil(prior.Range() / kernel.Range() * overlapFactor))
  }

  /** Neighbouring proxies of a grid with at least two points are equally spaced. */
  lemma ScanChirpMassesUniform(prior: Bounds, kernel: Bounds, overlapFactor: real, i: int)
    requires ScanChirpMasses(prior, kernel, overlapFactor).Success?
    requires 0 <= i < |ScanChirpMasses(prior, kernel, overlapFactor).value| - 1
    ensures var g := ScanChirpMasses(prior, kernel, overlapFactor).value;
      g[i + 1] - g[i] == Step(prior.minimum - kernel.minimum, prior.maximum - kernel.maximum, |g|)
  {
    var g := ScanChirpMasses(prior, kernel, overlapFactor).value;
    LinspaceUniform(prior.minimum - kernel.minimum, prior.maximum - kernel.maximum, |g|, i);
  }

  /** Prior [0, 10], kernel [-0.5, 0.5], overlap factor 2: twenty proxies from
      0.5 to 9.5, spaced 9/19 apart. */
  lemma GridExample()
    ensures var r := ScanChirpMasses(Bounds(0.0, 10.0), Bounds(-0.5, 0.5), 2.0);
      && r.Success? && |r.value| == 20
      && r.value[0] == 0.5 && r.value[19] == 9.5
      && r.value[1] - r.value[0] == 9.0 / 19.0
  {
    var r := ScanChirpMasses(Bounds(0.0, 10.0), Bounds(-0.5, 0.5), 2.0);
    assert Bounds(0.0, 10.0).Range() / Bounds(-0.5, 0.5).Range() * 2.0 == 20.0;
    ScanChirpMassesUniform(Bounds(0.0, 10.0), Bounds(-0.5, 0.5), 2.0, 0);
  }

  /** A sample drawn at proxy `g` has chirp mass `g + delta` with `delta` inside the kernel. */
  ghost predicate InKernelWindow(g: real, kernel: Bounds, m: real) {
    g + kernel.minimum <= m <= g + kernel.maximum
  }

  /** Some proxy of the grid reaches chirp mass `m`. */
  ghost predicate Covered(grid: seq<real>, kernel: Bounds, m: real) {
    exists i :: 0 <= i < |grid| && InKernelWindow(grid[i], kernel, m)
  }

  /** Windows whose proxies are at most one kernel width apart leave no gap
      between the first window's lower end and window `j`'s upper end. */
  lemma {:induction false} WindowsUpTo(grid: seq<real>, kernel: Bounds, j: nat, m: real)
    requires j < |grid|
    requires forall i | 0 <= i < |grid| - 1 :: grid[i + 1] - grid[i] <= kernel.Range()
    requires grid[0] + kernel.minimum <= m <= grid[j] + kernel.maximum
    ensures Covered(grid, kernel, m)
    decreases j
  {
    if m >= grid[j] + kernel.minimum {
      assert InKernelWindow(grid[j], kernel, m);
    } else {
      assert grid[j] - grid[j - 1] <= kernel.Range();
      WindowsUpTo(grid, kernel, j - 1, m);
    }
  }

  /** With a proper prior and kernel and an overlap factor of at least one, every
      chirp mass of the prior lies in the kernel window of some grid proxy. */
  lemma GridCoversPrior(prior: Bounds, kernel: Bounds, overlapFactor: real, m: real)
    requires 0.0 < prior.Range() && 0.0 < kernel.Range() && 1.0 <= overlapFactor
    requires prior.minimum <= m <= prior.maximum
    ensures ScanChirpMasses(prior, kernel, overlapFactor).Success?
    ensures Covered(ScanChirpMasses(prior, kernel, overlapFactor).value, kernel, m)
  {
    var P, K := prior.Range(), kernel.Range();
    var r := ScanChirpMasses(prior, kernel, overlapFactor);
    RatioPositive(P, K, overlapFactor);
    var g := r.value;
    CountCoversRange(P, K, overlapFactor, |g|);
    if |g| == 1 {
      assert InKernelWindow(g[0], kernel, m);
    } else {
      StepAtMostKernel(P, K, |g|);
      GridSpacing(prior, kernel, overlapFactor);
      WindowsUpTo(g, kernel, |g| - 1, m);
    }
  }

  /** A grid of at least two proxies is spaced by the step from the first to the last proxy. */
  lemma GridSpacing(prior: Bounds, kernel: Bounds, overlapFactor: real)
    requires ScanChirpMasses(prior, kernel, overlapFactor).Success?
    requires 2 <= |ScanChirpMasses(prior, kernel, overlapFactor).value|
    ensures var g := ScanChirpMasses(prior, kernel, overlapFactor).value;
      forall i | 0 <= i < |g| - 1 :: g[i + 1] - g[i] == (prior.Range() - kernel.Range()) / (|g| - 1) as real
  {
    var g := ScanChirpMasses(prior, kernel, overlapFactor).value;
    assert (prior.maximum - kernel.maximum) - (prior.minimum - kernel.minimum) == prior.Range() - kernel.Range();
    forall i | 0 <= i < |g| - 1
      ensures g[i + 1] - g[i] == (prior.Range() - kernel.Range()) / (|g| - 1) as real
    {
      ScanChirpMassesUniform(prior, kernel, overlapFactor, i);
    }
  }

  /** A positive range ratio times a positive overlap factor is positive. */
  lemma RatioPositive(P: real, K: real, o: real)
    requires 0.0 < P && 0.0 < K && 0.0 < o
    ensures 0.0 < P / K * o
  {
    RealMulSign(P, 1.0 / K);
    assert P / K == P * (1.0 / K);
    RealMulSign(P / K, o);
  }

  /** `n >= P / K * o` proxies with `o >= 1` span at least the prior range. */
  lemma CountCoversRange(P: real, K: real, o: real, n: int)
    requires 0.0 < P && 0.0 < K && 1.0 <= o && P / K * o <= n as real
    ensures 1 <= n && P <= n as real * K
  {
    assert P / K * o - P / K == P / K * (o - 1.0);
    RealMulSign(o - 1.0, P / K);
    assert (P / K) * K == P;
    RealMulSign(n as real - P / K, K);
  }

  /** When `n` kernel widths span the prior range, neighbouring proxies are at
      most one kernel width apart. */
  lemma StepAtMostKernel(P: real, K: real, n: int)
    requires 0.0 < K && 2 <= n && P <= n as real * K
    ensures (P - K) / (n - 1) as real <= K
  {
    var d := (n - 1) as real;
    var s := (P - K) / d;
    assert s * d == P - K;
    assert (K - s) * d == K * d - s * d;
    assert K * d == n as real * K - K;
    RealMulSign(K - s, d);
  }

  /** The chirp-mass parameters injected into one transform call. */
  datatype ScanParameters = ScanParameters(chirpMass: real, chirpMassProxy: real)

  /** `{**data, **params_dict(x)}`: the event data with the scan parameters attached. */
  datatype TransformInput<D> = TransformInput(data: D, parameters: ScanParameters)

  /** The two outputs of the preprocessing transform the network consumes. */
  datatype NetworkInput<W, C> = NetworkInput(waveform: W, contextParameters: C)

  /** The transform input for grid value `x`: the same value is injected as the
      chirp mass and as its proxy. */
  function Inject<D>(data: D, x: real): (r: TransformInput<D>)
    ensures r.data == data
    ensures r.parameters.chirpMass == r.parameters.chirpMassProxy == x
  {
    TransformInput(data, ScanParameters(x, x))
  }

  /** Rows of the batched network input are grouped in blocks of `numSamples`,
      block `b` holding the transform output for grid value `b`. */
  ghost predicate BlockLayout<D, W, C>(
    waveform: seq<W>, contextParameters: seq<C>,
    transform: TransformInput<D> -> NetworkInput<W, C>, data: D,
    chirpMasses: seq<real>, numSamples: int)
  {
    && 0 <= numSamples
    && |waveform| == |chirpMasses| * numSamples
    && |contextParameters| == |waveform|
    && forall row | 0 <= row < |waveform| ::
         && 0 < numSamples
         && row / numSamples < |chirpMasses|
         && waveform[row] == transform(Inject(data, chirpMasses[row / numSamples])).waveform
         && contextParameters[row] == transform(Inject(data, chirpMasses[row / numSamples])).contextParameters
  }

  /** Reference batch: row `r` of both outputs is the transform output for grid
      value `r / numSamples`. */
  ghost function NetworkBatch<D, W, C>(
    transform: TransformInput<D> -> NetworkInput<W, C>, data: D,
    chirpMasses: seq<real>, numSamples: nat): (r: (seq<W>, seq<C>))
    ensures BlockLayout(r.0, r.1, transform, data, chirpMasses, numSamples)
  {
    var n := |chirpMasses| * numSamples;
    MulMonotone(0, |chirpMasses|, numSamples);
    forall row | 0 <= row < n
      ensures 0 < numSamples && row / numSamples < |chirpMasses|
    {
      RowInBlocks(row, |chirpMasses|, numSamples);
    }
    (seq(n, row requires 0 <= row < n => transform(Inject(data, chirpMasses[row / numSamples])).waveform),
     seq(n, row requires 0 <= row < n => transform(Inject(data, chirpMasses[row / numSamples])).contextParameters))
  }

  /** The block layout fixes the batch: there is exactly one network input for a grid. */
  lemma BlockLayoutUnique<D, W, C>(
    w1: seq<W>, c1: seq<C>, w2: seq<W>, c2: seq<C>,
    transform: TransformInput<D> -> NetworkInput<W, C>, data: D,
    chirpMasses: seq<real>, numSamples: int)
    requires BlockLayout(w1, c1, transform, data, chirpMasses, numSamples)
    requires BlockLayout(w2, c2, transform, data, chirpMasses, numSamples)
    ensures w1 == w2 && c1 == c2
  {
  }

  /** `generate_data_for_scan`: one transform call per grid value, its output
      copied into that value's contiguous block of `numSamples` rows. */
  method GenerateDataForScan<D, W, C>(
    transform: TransformInput<D> -> NetworkInput<W, C>, data: D,
    chirpMasses: seq<real>, numSamples: int)
    returns (r: Result<(seq<W>, seq<C>)>)
    ensures |chirpMasses| == 0 ==> r == Failure(EmptyGrid)
    ensures |chirpMasses| > 0 && numSamples < 0 ==> r == Failure(NegativeBufferSize)
    ensures |chirpMasses| > 0 && numSamples >= 0 ==> r.Success?
    ensures r.Success? ==>
      BlockLayout(r.value.0, r.value.1, transform, data, chirpMasses, numSamples)
  {
    if |chirpMasses| == 0 {
      return Failure(EmptyGrid);
    }
    // the first call fixes the shape of the buffers
    var first := transform(Inject(data, chirpMasses[0]));
    if numSamples < 0 {
      return Failure(NegativeBufferSize);
    }
    MulMonotone(0, |chirpMasses|, numSamples);
    var total := |chirpMasses| * numSamples;
    var waveform := new W[total](_ => first.waveform);
    var contextParameters := new C[total](_ => first.contextParameters);
    var idx := 0;
    while idx < |chirpMasses|
      invariant 0 <= idx <= |chirpMasses|
      invariant forall row | 0 <= row < idx * numSamples ::
        && row < total
        && 0 < numSamples
        && row / numSamples < |chirpMasses|
        && waveform[row] == transform(Inject(data, chirpMasses[row / numSamples])).waveform
        && contextParameters[row] == transform(Inject(data, chirpMasses[row / numSamples])).contextParameters
    {
      var out := transform(Inject(data, chirpMasses[idx]));
      var lower, upper := idx * numSamples, (idx + 1) * numSamples;
      MulMonotone(idx + 1, |chirpMasses|, numSamples);
      MulMonotone(0, idx, numSamples);
      assert upper == lower + numSamples;
      forall k | lower <= k < upper {
        waveform[k] := out.waveform;
      }
      forall k | lower <= k < upper {
        contextParameters[k] := out.contextParameters;
      }
      forall row | lower <= row < upper
        ensures row / numSamples == idx
      {
        DivInBlock(row, idx, numSamples);
      }
      idx := idx + 1;
    }
    assert idx * numSamples == total;
    r := Success((waveform[..], contextParameters[..]));
  }

  /** `chirp_masses.repeat(num_samples) + delta_chirp_mass`: the absolute chirp
      mass of every sample, with numpy broadcasting.  `numSamples` is
      non-negative here because a negative count already failed when the
      network input was allocated. */
  function ReconstructChirpMasses(chirpMasses: seq<real>, numSamples: nat, delta: seq<real>): (r: Result<seq<real>>)
    ensures r.Failure? <==>
      |delta| != |chirpMasses| * numSamples && |delta| != 1 && |chirpMasses| * numSamples != 1
    ensures |delta| == |chirpMasses| * numSamples ==>
      && r.Success? && |r.value| == |delta|
      && forall row | 0 <= row < |delta| ::
           && 0 < numSamples && row / numSamples < |chirpMasses|
           && r.value[row] == chirpMasses[row / numSamples] + delta[row]
  {
    RepeatBlocks(chirpMasses, numSamples);
    AddBroadcast(Repeat(chirpMasses, numSamples), delta)
  }
}

=== FILE: nsf.dfy ===
/** The structure of the neural spline flow built by `dingo/core/nn/nsf.py`:
    the transforms are descriptors recording what the builders pass to the
    flow library, not the numerics behind them. */
module Nsf {
  import opened Results
  import opened Numerics

  /** The two supported base transform tags, and the tail mode both use. */
  const CouplingType: string := "rq-coupling"
  const AutoregressiveType: string := "rq-autoregressive"
  const LinearTails: string := "linear"

  predicate KnownType(tag: string) {
    tag == CouplingType || tag == AutoregressiveType
  }

  /** `base_transform_kwargs`: every key may be left out. */
  datatype BaseTransformKwargs = BaseTransformKwargs(
    hiddenDim: Option<int>,
    numTransformBlocks: Option<int>,
    activation: Option<string>,
    dropoutProbability: Option<real>,
    batchNorm: Option<bool>,
    numBins: Option<int>,
    tailBound: Option<real>,
    applyUnconditionalTransform: Option<bool>,
    baseTransformType: Option<string>)

  /** The keyword parameters of `create_base_transform` once its defaults apply. */
  datatype BaseTransformSettings = BaseTransformSettings(
    hiddenDim: int,
    numTransformBlocks: int,
    activation: string,
    dropoutProbability: real,
    batchNorm: bool,
    numBins: int,
    tailBound: real,
    applyUnconditionalTransform: bool,
    baseTransformType: string)

  /** The defaults of `create_base_transform`'s signature. */
  const DefaultSettings: BaseTransformSettings :=
    BaseTransformSettings(512, 2, "relu", 0.0, false, 8, 1.0, false, CouplingType)

  /** No keyword argument given. */
  const NoKwargs: BaseTransformKwargs :=
    BaseTransformKwargs(None, None, None, None, None, None, None, None, None)

  /** Every setting passed explicitly. */
  function Explicit(s: BaseTransformSettings): BaseTransformKwargs {
    BaseTransformKwargs(
      Some(s.hiddenDim), Some(s.numTransformBlocks), Some(s.activation), Some(s.dropoutProbability),
      Some(s.batchNorm), Some(s.numBins), Some(s.tailBound), Some(s.applyUnconditionalTransform),
      Some(s.baseTransformType))
  }

  /** `**base_transform_kwargs` on `create_base_transform`: a given key wins, a
      missing key takes the default of the signature. */
  function WithDefaults(kw: BaseTransformKwargs): (s: BaseTransformSettings)
    ensures kw == NoKwargs ==> s == DefaultSettings
    ensures kw.hiddenDim.Some? ==> s.hiddenDim == kw.hiddenDim.value
    ensures kw.numTransformBlocks.Some? ==> s.numTransformBlocks == kw.numTransformBlocks.value
    ensures kw.activation.Some? ==> s.activation == kw.activation.value
    ensures kw.dropoutProbability.Some? ==> s.dropoutProbability == kw.dropoutProbability.value
    ensures kw.batchNorm.Some? ==> s.batchNorm == kw.batchNorm.value
    ensures kw.numBins.Some? ==> s.numBins == kw.numBins.value
    ensures kw.tailBound.Some? ==> s.tailBound == kw.tailBound.value
    ensures kw.applyUnconditionalTransform.Some? ==>
      s.applyUnconditionalTransform == kw.applyUnconditionalTransform.value
    ensures kw.baseTransformType.Some? ==> s.baseTransformType == kw.baseTransformType.value
    ensures kw.hiddenDim.None? ==> s.hiddenDim == 512
    ensures kw.numTransformBlocks.None? ==> s.numTransformBlocks == 2
    ensures kw.activation.None? ==> s.activation == "relu"
    ensures kw.dropoutProbability.None? ==> s.dropoutProbability == 0.0
    ensures kw.batchNorm.None? ==> !s.batchNorm
    ensures kw.numBins.None? ==> s.numBins == 8
    ensures kw.tailBound.None? ==> s.tailBound == 1.0
    ensures kw.applyUnconditionalTransform.None? ==> !s.applyUnconditionalTransform
    ensures kw.baseTransformType.None? ==> s.baseTransformType == CouplingType
  {
    BaseTransformSettings(
      kw.hiddenDim.GetOr(DefaultSettings.hiddenDim),
      kw.numTransformBlocks.GetOr(DefaultSettings.numTransformBlocks),
      kw.activation.GetOr(DefaultSettings.activation),
      kw.dropoutProbability.GetOr(DefaultSettings.dropoutProbability),
      kw.batchNorm.GetOr(DefaultSettings.batchNorm),
      kw.numBins.GetOr(DefaultSettings.numBins),
      kw.tailBound.GetOr(DefaultSettings.tailBound),
      kw.applyUnconditionalTransform.GetOr(DefaultSettings.applyUnconditionalTransform),
      kw.baseTransformType.GetOr(DefaultSettings.baseTransformType))
  }

  /** Passing every setting explicitly reproduces exactly those settings. */
  lemma ExplicitSettingsKept(s: BaseTransformSettings)
    ensures WithDefaults(Explicit(s)) == s
  {
  }

  /** The residual network that computes the spline parameters. */
  datatype ResidualNetSpec = ResidualNetSpec(
    hiddenFeatures: int,
    contextFeatures: Option<int>,
    numBlocks: int,
    activation: string,
    dropoutProbability: real,
    useBatchNorm: bool)

  /** A transform of the flow, as the builders construct it. */
  datatype Transform =
    | RandomPermutation(features: int)
    | LuLinear(features: int, identityInit: bool)
    | RqCoupling(mask: seq<int>, net: ResidualNetSpec, numBins: int, tails: string, tailBound: real,
                 applyUnconditionalTransform: bool)
    | RqAutoregressive(features: int, net: ResidualNetSpec, numBins: int, tails: string, tailBound: real,
                       useResidualBlocks: bool, randomMask: bool)
    | Composite(parts: seq<Transform>)

  /** Every elementary transform inside `t` acts on `d` features. */
  predicate HasWidth(t: Transform, d: int)
    decreases t
  {
    match t
    case RandomPermutation(f) => f == d
    case LuLinear(f, _) => f == d
    case RqCoupling(mask, _, _, _, _, _) => |mask| == d
    case RqAutoregressive(f, _, _, _, _, _, _) => f == d
    case Composite(parts) => forall i | 0 <= i < |parts| :: HasWidth(parts[i], d)
  }

  /** The elementary transforms of `t` in the order they are applied. */
  function Leaves(t: Transform): seq<Transform>
    decreases t
  {
    match t
    case Composite(parts) => Concat(seq(|parts|, i requires 0 <= i < |parts| => Leaves(parts[i])))
    case _ => [t]
  }

  /** `create_linear_transform`: a random permutation followed by an LU linear
      map initialised to the identity. */
  function CreateLinearTransform(paramDim: int): (t: Transform)
    ensures t.Composite? && |t.parts| == 2
    ensures t.parts[0] == RandomPermutation(paramDim)
    ensures t.parts[1] == LuLinear(paramDim, true)
  {
    Composite([RandomPermutation(paramDim), LuLinear(paramDim, true)])
  }

  /** A two-part composite applies the first part's transforms, then the second's. */
  lemma LeavesOfPair(a: Transform, b: Transform)
    ensures Leaves(Composite([a, b])) == Leaves(a) + Leaves(b)
  {
    var parts := [a, b];
    assert seq(|parts|, i requires 0 <= i < |parts| => Leaves(parts[i])) == [Leaves(a), Leaves(b)];
    assert Concat([Leaves(b)]) == Leaves(b) + Concat([]);
  }

  /** The linear transform is the two-step chain permutation, LU map over `paramDim` features. */
  lemma LinearTransformShape(paramDim: int)
    ensures HasWidth(CreateLinearTransform(paramDim), paramDim)
    ensures Leaves(CreateLinearTransform(paramDim)) == [RandomPermutation(paramDim), LuLinear(paramDim, true)]
  {
    LeavesOfPair(RandomPermutation(paramDim), LuLinear(paramDim, true));
  }

  /** nflows' alternating mask: ones at the even positions when `even`, at the odd ones otherwise. */
  function AlternatingBinaryMask(features: nat, even: bool): (m: seq<int>)
    ensures |m| == features
    ensures features > 0 ==> m[0] == if even then 1 else 0
    ensures forall k | 0 <= k < features - 1 :: m[k] + m[k + 1] == 1
  {
    seq(features, k requires 0 <= k < features => if (k % 2 == 0) == even then 1 else 0)
  }

  /** The network settings both base transform variants receive. */
  function NetSpec(contextDim: Option<int>, s: BaseTransformSettings): ResidualNetSpec {
    ResidualNetSpec(s.hiddenDim, contextDim, s.numTransformBlocks, s.activation, s.dropoutProbability, s.batchNorm)
  }

  /** `create_base_transform`: transform `i` of the sequence, a coupling or an
      autoregressive rational-quadratic spline; any other tag is an error. */
  function CreateBaseTransform(i: int, paramDim: nat, contextDim: Option<int>, s: BaseTransformSettings)
    : (r: Result<Transform>)
    ensures r.Failure? <==> !KnownType(s.baseTransformType)
    ensures r.Failure? ==> r.error == UnknownTransformType(s.baseTransformType)
    ensures s.baseTransformType == CouplingType ==>
      && r.Success? && r.value.RqCoupling?
      && r.value.mask == (if paramDim == 1 then [1] else AlternatingBinaryMask(paramDim, i % 2 == 0))
      && r.value.applyUnconditionalTransform == s.applyUnconditionalTransform
    ensures s.baseTransformType == AutoregressiveType ==>
      && r.Success? && r.value.RqAutoregressive?
      && r.value.features == paramDim
      && r.value.useResidualBlocks && !r.value.randomMask
    ensures r.Success? ==>
      && r.value.tails == LinearTails
      && r.value.tailBound == s.tailBound
      && r.value.numBins == s.numBins
      && r.value.net.contextFeatures == contextDim
      && r.value.net.hiddenFeatures == s.hiddenDim
      && r.value.net.numBlocks == s.numTransformBlocks
      && r.value.net.activation == s.activation
      && r.value.net.dropoutProbability == s.dropoutProbability
      && r.value.net.useBatchNorm == s.batchNorm
  {
    if s.baseTransformType == CouplingType then
      var mask := if paramDim == 1 then [1] else AlternatingBinaryMask(paramDim, i % 2 == 0);
      Success(RqCoupling(mask, NetSpec(contextDim, s), s.numBins, LinearTails, s.tailBound,
                         s.applyUnconditionalTransform))
    else if s.baseTransformType == AutoregressiveType then
      Success(RqAutoregressive(paramDim, NetSpec(contextDim, s), s.numBins, LinearTails, s.tailBound,
                               true, false))
    else
      Failure(UnknownTransformType(s.baseTransformType))
  }

  /** A base transform acts on all `paramDim` features. */
  lemma BaseTransformWidth(i: int, paramDim: nat, contextDim: Option<int>, s: BaseTransformSettings)
    requires KnownType(s.baseTransformType)
    ensures HasWidth(CreateBaseTransform(i, paramDim, contextDim, s).value, paramDim)
  {
  }

  /** Successive coupling blocks transform complementary halves: every feature
      held fixed by block `i` is transformed by block `i + 1` and vice versa. */
  lemma CouplingMasksAlternate(i: int, paramDim: nat, contextDim: Option<int>, s: BaseTransformSettings)
    requires s.baseTransformType == CouplingType && paramDim >= 2
    ensures var a := CreateBaseTransform(i, paramDim, contextDim, s).value.mask;
      var b := CreateBaseTransform(i + 1, paramDim, contextDim, s).value.mask;
      |a| == |b| == paramDim && forall k | 0 <= k < paramDim :: a[k] + b[k] == 1
  {
    assert (i % 2 == 0) != ((i + 1) % 2 == 0);
  }

  /** The steps `i .. n - 1` of the flow, each a linear transform followed by base transform `i`. */
  function FlowSteps(i: nat, n: nat, paramDim: nat, contextDim: int, s: BaseTransformSettings)
    : (r: Result<seq<Transform>>)
    requires i <= n
    ensures r.Failure? <==> i < n && !KnownType(s.baseTransformType)
    ensures r.Failure? ==> r.error == UnknownTransformType(s.baseTransformType)
    ensures r.Success? ==> |r.value| == n - i
    ensures r.Success? ==> forall j | 0 <= j < n - i ::
      r.value[j] == Composite([CreateLinearTransform(paramDim),
                               CreateBaseTransform(i + j, paramDim, Some(contextDim), s).value])
    decreases n - i
  {
    if i == n then Success([])
    else
      var base :- CreateBaseTransform(i, paramDim, Some(contextDim), s);
      // the tag is known once one base transform was built, so the rest succeed too
      var rest := FlowSteps(i + 1, n, paramDim, contextDim, s);
      Success([Composite([CreateLinearTransform(paramDim), base])] + rest.value)
  }

  /** `range(num_flow_steps)` is empty for a non-positive count. */
  function StepCount(numFlowSteps: int): nat {
    if numFlowSteps < 0 then 0 else numFlowSteps
  }

  /** `create_transform`: the flow steps followed by one trailing linear transform. */
  function CreateTransform(numFlowSteps: int, paramDim: nat, contextDim: int, kwargs: BaseTransformKwargs)
    : (r: Result<Transform>)
    ensures r.Failure? <==> numFlowSteps > 0 && !KnownType(WithDefaults(kwargs).baseTransformType)
    ensures r.Failure? ==> r.error == UnknownTransformType(WithDefaults(kwargs).baseTransformType)
    ensures r.Success? ==>
      && r.value.Composite?
      && |r.value.parts| == StepCount(numFlowSteps) + 1
      && r.value.parts[StepCount(numFlowSteps)] == CreateLinearTransform(paramDim)
      && forall i | 0 <= i < StepCount(numFlowSteps) ::
           r.value.parts[i] == Composite([CreateLinearTransform(paramDim),
                                          CreateBaseTransform(i, paramDim, Some(contextDim), WithDefaults(kwargs)).value])
  {
    var steps :- FlowSteps(0, StepCount(numFlowSteps), paramDim, contextDim, WithDefaults(kwargs));
    Success(Composite(steps + [CreateLinearTransform(paramDim)]))
  }

  /** Every transform of the flow acts on the `paramDim` parameters. */
  lemma TransformWidth(numFlowSteps: int, paramDim: nat, contextDim: int, kwargs: BaseTransformKwargs)
    requires CreateTransform(numFlowSteps, paramDim, contextDim, kwargs).Success?
    ensures HasWidth(CreateTransform(numFlowSteps, paramDim, contextDim, kwargs).value, paramDim)
  {
    var t := CreateTransform(numFlowSteps, paramDim, contextDim, kwargs).value;
    var n := StepCount(numFlowSteps);
    LinearTransformShape(paramDim);
    forall i | 0 <= i < |t.parts|
      ensures HasWidth(t.parts[i], paramDim)
    {
      if i < n {
        BaseTransformWidth(i, paramDim, Some(contextDim), WithDefaults(kwargs));
      }
    }
  }

  /** The elementary transforms of a chain of three-transform blocks: position
      `p` holds element `p % 3` of block `p / 3`. */
  lemma {:induction false} ConcatTriples<T>(blocks: seq<seq<T>>)
    requires forall b | 0 <= b < |blocks| :: |blocks[b]| == 3
    ensures |Concat(blocks)| == 3 * |blocks|
    ensures forall p | 0 <= p < 3 * |blocks| :: Concat(blocks)[p] == blocks[p / 3][p % 3]
    decreases |blocks|
  {
    if |blocks| > 0 {
      ConcatTriples(blocks[1..]);
      var rest := Concat(blocks[1..]);
      forall p | 0 <= p < 3 * |blocks|
        ensures Concat(blocks)[p] == blocks[p / 3][p % 3]
      {
        if p >= 3 {
          assert Concat(blocks)[p] == rest[p - 3];
          assert (p - 3) / 3 == p / 3 - 1 && (p - 3) % 3 == p % 3;
        }
      }
    }
  }

  /** Applied in order, step `b` of the flow is permutation, LU map and base transform `b`. */
  lemma StepLeaves(numFlowSteps: int, paramDim: nat, contextDim: int, kwargs: BaseTransformKwargs, b: int)
    requires CreateTransform(numFlowSteps, paramDim, contextDim, kwargs).Success?
    requires 0 <= b < StepCount(numFlowSteps)
    ensures Leaves(CreateTransform(numFlowSteps, paramDim, contextDim, kwargs).value.parts[b])
            == [RandomPermutation(paramDim), LuLinear(paramDim, true),
                CreateBaseTransform(b, paramDim, Some(contextDim), WithDefaults(kwargs)).value]
  {
    var base := CreateBaseTransform(b, paramDim, Some(contextDim), WithDefaults(kwargs)).value;
    assert !base.Composite?;
    LinearTransformShape(paramDim);
    LeavesOfPair(CreateLinearTransform(paramDim), base);
  }

  /** Applied in order, the flow is permutation, LU map and base transform `i`
      for every step `i`, then one more permutation and LU map. */
  lemma TransformLeaves(numFlowSteps: int, paramDim: nat, contextDim: int, kwargs: BaseTransformKwargs)
    requires CreateTransform(numFlowSteps, paramDim, contextDim, kwargs).Success?
    ensures var leaves := Leaves(CreateTransform(numFlowSteps, paramDim, contextDim, kwargs).value);
      var n := StepCount(numFlowSteps);
      && |leaves| == 3 * n + 2
      && (forall p | 0 <= p < 3 * n ::
            leaves[p] == if p % 3 == 0 then RandomPermutation(paramDim)
                         else if p % 3 == 1 then LuLinear(paramDim, true)
                         else CreateBaseTransform(p / 3, paramDim, Some(contextDim), WithDefaults(kwargs)).value)
      && leaves[3 * n] == RandomPermutation(paramDim)
      && leaves[3 * n + 1] == LuLinear(paramDim, true)
  {
    var s := WithDefaults(kwargs);
    var t := CreateTransform(numFlowSteps, paramDim, contextDim, kwargs).value;
    var n := StepCount(numFlowSteps);
    var lin := [RandomPermutation(paramDim), LuLinear(paramDim, true)];
    LinearTransformShape(paramDim);
    var perPart := seq(|t.parts|, i requires 0 <= i < |t.parts| => Leaves(t.parts[i]));
    assert Leaves(t) == Concat(perPart);
    var blocks := perPart[..n];
    forall b | 0 <= b < n
      ensures blocks[b] == lin + [CreateBaseTransform(b, paramDim, Some(contextDim), s).value]
    {
      StepLeaves(numFlowSteps, paramDim, contextDim, kwargs, b);
    }
    assert perPart == blocks + [lin];
    ConcatAppend(blocks, [lin]);
    assert Concat([lin]) == lin;
    ConcatTriples(blocks);
  }

  /** The shape of the standard normal base distribution. */
  datatype StandardNormal = StandardNormal(shape: seq<int>)

  /** `model_hyperparams`: the five inputs kept for rebuilding the model. */
  datatype Hyperparams<K> = Hyperparams(
    inputDim: nat,
    numFlowSteps: int,
    contextDim: int,
    baseTransformKwargs: BaseTransformKwargs,
    embeddingNetKwargs: Option<K>)

  datatype NsfModel<E, K> = NsfModel(
    transform: Transform,
    distribution: StandardNormal,
    embeddingNet: Option<E>,
    hyperparams: Hyperparams<K>)

  /** `create_nsf_model`; the embedding net, when a builder is given, is the
      builder applied to the embedding keyword arguments. */
  function CreateNsfModel<E, K>(
    inputDim: nat, contextDim: int, numFlowSteps: int, baseTransformKwargs: BaseTransformKwargs,
    embeddingNetBuilder: Option<K -> E>, embeddingNetKwargs: Option<K>)
    : (r: Result<NsfModel<E, K>>)
    ensures embeddingNetBuilder.Some? && embeddingNetKwargs.None? ==> r == Failure(MissingEmbeddingKwargs)
    ensures !(embeddingNetBuilder.Some? && embeddingNetKwargs.None?) ==>
      (r.Success? <==> CreateTransform(numFlowSteps, inputDim, contextDim, baseTransformKwargs).Success?)
    ensures r.Success? ==>
      && r.value.transform == CreateTransform(numFlowSteps, inputDim, contextDim, baseTransformKwargs).value
      && r.value.distribution == StandardNormal([inputDim])
      && (r.value.embeddingNet.None? <==> embeddingNetBuilder.None?)
      && (r.value.embeddingNet.Some? ==>
            r.value.embeddingNet.value == embeddingNetBuilder.value(embeddingNetKwargs.value))
      && r.value.hyperparams == Hyperparams(inputDim, numFlowSteps, contextDim, baseTransformKwargs, embeddingNetKwargs)
  {
    var embeddingNet :-
      match embeddingNetBuilder
      case None => Success(None)
      case Some(build) =>
        if embeddingNetKwargs.None? then Failure(MissingEmbeddingKwargs)
        else Success(Some(build(embeddingNetKwargs.value)));
    var transform :- CreateTransform(numFlowSteps, inputDim, contextDim, baseTransformKwargs);
    Success(NsfModel(transform, StandardNormal([inputDim]), embeddingNet,
                     Hyperparams(inputDim, numFlowSteps, contextDim, baseTransformKwargs, embeddingNetKwargs)))
  }

  /** The stored hyperparameters rebuild the same model with the same builder. */
  lemma ModelRebuiltFromHyperparams<E, K>(
    inputDim: nat, contextDim: int, numFlowSteps: int, baseTransformKwargs: BaseTransformKwargs,
    embeddingNetBuilder: Option<K -> E>, embeddingNetKwargs: Option<K>)
    requires CreateNsfModel(inputDim, contextDim, numFlowSteps, baseTransformKwargs,
                            embeddingNetBuilder, embeddingNetKwargs).Success?
    ensures var m := CreateNsfModel(inputDim, contextDim, numFlowSteps, baseTransformKwargs,
                                    embeddingNetBuilder, embeddingNetKwargs).value;
      var h := m.hyperparams;
      CreateNsfModel(h.inputDim, h.contextDim, h.numFlowSteps, h.baseTransformKwargs,
                     embeddingNetBuilder, h.embeddingNetKwargs) == Success(m)
  {
  }

  /** `FlowWrapper`: a flow and an optional embedding net for the context. */
  datatype FlowWrapper<F, E> = FlowWrapper(flow: F, embeddingNet: Option<E>)

  /** What the flow is conditioned on: the raw context, or its embedding. */
  datatype Conditioning<X, V> = Raw(context: X) | Embedded(features: V)

  /** The context passes through the embedding net exactly when there is one. */
  function ConditioningOf<F, E, X, V>(w: FlowWrapper<F, E>, x: X, embed: (E, X) -> V): (c: Conditioning<X, V>)
    ensures c.Embedded? <==> w.embeddingNet.Some?
    ensures c.Raw? ==> c.context == x
    ensures c.Embedded? ==> c.features == embed(w.embeddingNet.value, x)
  {
    match w.embeddingNet
    case None => Raw(x)
    case Some(net) => Embedded(embed(net, x))
  }

  /** `FlowWrapper.log_prob`: the flow's log-density under the conditioning. */
  function LogProb<F, E, X, V, Y>(
    w: FlowWrapper<F, E>, y: Y, x: X, embed: (E, X) -> V,
    flowLogProb: (F, Y, Conditioning<X, V>) -> real): (r: real)
    ensures w.embeddingNet.None? ==> r == flowLogProb(w.flow, y, Raw(x))
    ensures w.embeddingNet.Some? ==> r == flowLogProb(w.flow, y, Embedded(embed(w.embeddingNet.value, x)))
  {
    flowLogProb(w.flow, y, ConditioningOf(w, x, embed))
  }

  /** `FlowWrapper.sample`: the flow's samples under the same conditioning. */
  function Sample<F, E, X, V, S>(
    w: FlowWrapper<F, E>, x: X, numSamples: int, embed: (E, X) -> V,
    flowSample: (F, int, Conditioning<X, V>) -> S): (r: S)
    ensures w.embeddingNet.None? ==> r == flowSample(w.flow, numSamples, Raw(x))
    ensures w.embeddingNet.Some? ==> r == flowSample(w.flow, numSamples, Embedded(embed(w.embeddingNet.value, x)))
  {
    flowSample(w.flow, numSamples, ConditioningOf(w, x, embed))
  }

  /** `FlowWrapper.forward`: the log-density, as used for training. */
  function Forward<F, E, X, V, Y>(
    w: FlowWrapper<F, E>, y: Y, x: X, embed: (E, X) -> V,
    flowLogProb: (F, Y, Conditioning<X, V>) -> real): (r: real)
    ensures r == flowLogProb(w.flow, y, ConditioningOf(w, x, embed))
    ensures w.embeddingNet.None? ==> r == flowLogProb(w.flow, y, Raw(x))
  {
    LogProb(w, y, x, embed, flowLogProb)
  }
}

=== FILE: numerics.dfy ===
/** The numeric primitives of Python and numpy the scan relies on, over
    unbounded reals: `math.ceil`, `int` truncation, `numpy.linspace`,
    `numpy.repeat` and elementwise addition with broadcasting. */
module Numerics {
  import opened Results

  /** `math.ceil`: the least integer not below `x`. */
  function Ceil(x: real): (r: int)
    ensures r as real - 1.0 < x <= r as real
  {
    -((-x).Floor)
  }

  /** `int(x)` on a float: truncation toward zero. */
  function Trunc(x: real): (r: int)
    ensures 0.0 <= x ==> 0 <= r && r as real <= x < r as real + 1.0
    ensures x < 0.0 ==> r <= 0 && r as real - 1.0 < x <= r as real
  {
    if x >= 0.0 then x.Floor else -((-x).Floor)
  }

  /** Distance between neighbouring points of a linspace with `num >= 2` points. */
  function Step(start: real, stop: real, num: int): real
    requires num >= 2
  {
    (stop - start) / (num - 1) as real
  }

  /** Point `i` of `numpy.linspace(start, stop, num)` with `endpoint=True`:
      `start + i * step`, except that the last point is overwritten with `stop`. */
  function LinspacePoint(start: real, stop: real, num: int, i: int): real
    requires 0 <= i < num
  {
    if num == 1 then start
    else if i == num - 1 then stop
    else start + i as real * Step(start, stop, num)
  }

  /** `numpy.linspace(start, stop, num)`. */
  function Linspace(start: real, stop: real, num: int): (r: Result<seq<real>>)
    ensures r.Failure? <==> num < 0
    ensures r.Failure? ==> r.error == NegativeCount
    ensures r.Success? ==> |r.value| == num
    ensures r.Success? && num >= 1 ==> r.value[0] == start
    ensures r.Success? && num >= 2 ==> r.value[num - 1] == stop
    ensures r.Success? && num >= 2 ==>
      forall i | 0 <= i < num :: r.value[i] == start + i as real * Step(start, stop, num)
  {
    if num < 0 then Failure(NegativeCount)
    else
      var points := seq(num, i requires 0 <= i < num => LinspacePoint(start, stop, num, i));
      assert num >= 2 ==> start + (num - 1) as real * Step(start, stop, num) == stop by {
        if num >= 2 {
          var d := (num - 1) as real;
          assert d * ((stop - start) / d) == stop - start;
        }
      }
      Success(points)
  }

  /** Neighbouring linspace points are one `Step` apart. */
  lemma LinspaceUniform(start: real, stop: real, num: int, i: int)
    requires num >= 2 && 0 <= i < num - 1
    ensures Linspace(start, stop, num).Success?
    ensures Linspace(start, stop, num).value[i + 1] - Linspace(start, stop, num).value[i]
            == Step(start, stop, num)
  {
    var s := Step(start, stop, num);
    var v := Linspace(start, stop, num).value;
    assert v[i] == start + i as real * s;
    assert v[i + 1] == start + (i + 1) as real * s;
  }

  /** The sign of a product with a positive integer factor is the sign of the other factor. */
  lemma MulSign(a: int, n: int)
    requires 0 < n
    ensures 0 <= a ==> 0 <= a * n
    ensures a < 0 ==> a * n < 0
  {
  }

  /** The sign of a product with a positive real factor is the sign of the other factor. */
  lemma RealMulSign(a: real, d: real)
    requires 0.0 < d
    ensures 0.0 <= a ==> 0.0 <= a * d
    ensures a < 0.0 ==> a * d < 0.0
  {
  }

  /** Rows `idx * n .. (idx + 1) * n - 1` are exactly the rows whose quotient by `n` is `idx`. */
  lemma DivInBlock(row: int, idx: int, n: int)
    requires 0 < n && idx * n <= row < (idx + 1) * n
    ensures row / n == idx
  {
    var q, m := row / n, row % n;
    assert row == q * n + m && 0 <= m < n;
    assert (q - idx - 1) * n == q * n - idx * n - n;
    assert (idx - q - 1) * n == idx * n - q * n - n;
    assert (idx + 1) * n == idx * n + n;
    MulSign(q - idx - 1, n);
    MulSign(idx - q - 1, n);
  }

  /** A row below `m * n` lies in one of the `m` blocks of `n` rows. */
  lemma RowInBlocks(row: int, m: int, n: int)
    requires 0 <= row < m * n && 0 <= m && 0 <= n
    ensures 0 < n && row / n < m
  {
    if n > 0 {
      var q := row / n;
      assert q * n <= row;
      if q >= m {
        MulMonotone(m, q, n);
      }
    }
  }

  /** `a <= b` is preserved by multiplication with a non-negative `n`. */
  lemma MulMonotone(a: int, b: int, n: int)
    requires a <= b && 0 <= n
    ensures a * n <= b * n
  {
    assert (b - a) * n >= 0;
  }

  /** `numpy.repeat(s, k)`: every element repeated `k` times in place. */
  function Repeat<T>(s: seq<T>, k: nat): (r: seq<T>)
    ensures |r| == |s| * k
  {
    if |s| == 0 then []
    else
      var rest := Repeat(s[1..], k);
      assert |s| * k == k + (|s| - 1) * k;
      seq(k, _ => s[0]) + rest
  }

  /** Element `j` of the repetition is element `j / k` of the original:
      the copies of one element are consecutive. */
  lemma {:induction false} RepeatIndex<T>(s: seq<T>, k: nat, j: int)
    requires 0 <= j < |Repeat(s, k)|
    ensures 0 < k && j / k < |s|
    ensures Repeat(s, k)[j] == s[j / k]
    decreases |s|
  {
    var head := seq(k, _ => s[0]);
    var rest := Repeat(s[1..], k);
    assert Repeat(s, k) == head + rest;
    if j < k {
      DivInBlock(j, 0, k);
      assert Repeat(s, k)[j] == head[j];
    } else {
      assert j - k < |rest|;
      RepeatIndex(s[1..], k, j - k);
      var q := (j - k) / k;
      assert q < |s| - 1;
      assert rest[j - k] == s[q + 1];
      assert Repeat(s, k)[j] == rest[j - k];
      BlockAfter(j, q, k);
    }
  }

  /** Every element of the repetition lies in the block of its source element. */
  lemma RepeatBlocks<T>(s: seq<T>, k: nat)
    ensures forall j | 0 <= j < |s| * k :: 0 < k && j / k < |s| && Repeat(s, k)[j] == s[j / k]
  {
    forall j | 0 <= j < |s| * k
      ensures 0 < k && j / k < |s| && Repeat(s, k)[j] == s[j / k]
    {
      RepeatIndex(s, k, j);
    }
  }

  /** Moving one block to the right increases the quotient by one. */
  lemma BlockAfter(j: int, q: int, k: int)
    requires 0 < k && 0 <= j - k && q == (j - k) / k
    ensures j / k == q + 1
  {
    var m := (j - k) % k;
    assert j - k == q * k + m && 0 <= m < k;
    assert (q + 1) * k == q * k + k;
    assert (q + 2) * k == q * k + k + k;
    DivInBlock(j, q + 1, k);
  }

  /** `a + b` on one-dimensional numpy arrays: equal lengths add elementwise,
      a length-one operand is broadcast, anything else is a shape error. */
  function AddBroadcast(a: seq<real>, b: seq<real>): (r: Result<seq<real>>)
    ensures r.Failure? <==> |a| != |b| && |a| != 1 && |b| != 1
    ensures r.Failure? ==> r.error == ShapeMismatch
    ensures r.Success? ==> |r.value| == if |a| == |b| || |a| != 1 then |a| else |b|
    ensures r.Success? ==> forall j | 0 <= j < |r.value| ::
      r.value[j] == (if |a| == 1 then a[0] else a[j]) + (if |b| == 1 then b[0] else b[j])
  {
    if |a| == |b| then Success(seq(|a|, j requires 0 <= j < |a| => a[j] + b[j]))
    else if |a| == 1 then Success(seq(|b|, j requires 0 <= j < |b| => a[0] + b[j]))
    else if |b| == 1 then Success(seq(|a|, j requires 0 <= j < |a| => a[j] + b[0]))
    else Failure(ShapeMismatch)
  }

  /** The concatenation of a sequence of sequences, in order. */
  function Concat<T>(parts: seq<seq<T>>): seq<T>
    decreases |parts|
  {
    if |parts| == 0 then [] else parts[0] + Concat(parts[1..])
  }

  lemma {:induction false} ConcatAppend<T>(a: seq<seq<T>>, b: seq<seq<T>>)
    ensures Concat(a + b) == Concat(a) + Concat(b)
    decreases |a|
  {
    if |a| == 0 {
      assert a + b == b;
    } else {
      assert (a + b)[0] == a[0];
      assert (a + b)[1..] == a[1..] + b;
      ConcatAppend(a[1..], b);
    }
  }
}

=== FILE: priors.dfy ===
/** The two views of a prior the scan needs: the bounds of a uniform prior
    (or of the conditioning kernel) and the value of a log-density that may
    be minus infinity outside the support. */
module Priors {

  /** `minimum`/`maximum` attributes of a bounded one-dimensional prior. */
  datatype Bounds = Bounds(minimum: real, maximum: real) {

    function Range(): real {
      maximum - minimum
    }
  }

  /** A log-prior value: minus infinity outside the prior's support. */
  datatype LogPrior = NegInf | Finite(value: real)
}

=== FILE: results.dfy ===
/** Optional values, the exceptions the modelled code can raise, and a
    failure-compatible result type that carries one of them. */
module Results {

  datatype Option<+T> = None | Some(value: T) {

    /** `value` when present, otherwise the given default. */
    function GetOr(default: T): T {
      match this
      case Some(v) => v
      case None => default
    }
  }

  /** One constructor per exception the scan script or the flow builder raises. */
  datatype Error =
    | ZeroDivision                   // float division by zero (ZeroDivisionError)
    | NegativeCount                  // linspace/repeat with a negative count (ValueError)
    | EmptyGrid                      // indexing the first element of an empty grid (IndexError)
    | NegativeBufferSize             // allocating a buffer with a negative row count (RuntimeError)
    | ShapeMismatch                  // operands that cannot be broadcast or tabulated together
    | EmptyArgmax                    // argmax of an empty sequence (ValueError)
    | UnknownTransformType(tag: string)  // unsupported base transform tag (ValueError)
    | MissingEmbeddingKwargs         // `builder(**None)` (TypeError)

  datatype Result<+T> = Success(value: T) | Failure(error: Error) {

    predicate IsFailure() {
      Failure?
    }

    function PropagateFailure<U>(): Result<U>
      requires Failure?
    {
      Failure(error)
    }

    function Extract(): T
      requires Success?
    {
      value
    }
  }
}

=== FILE: scan_pipeline.dfy ===
/** The loop of `main` in `binary_neutron_stars/scripts/chirp_mass_scan.py`,
    with the flow sampler, the preprocessing transforms, the prior and the
    likelihood passed in as functions: for every trial time offset a freshly
    loaded (optionally shifted) dataset is scanned over the chirp-mass grid,
    filtered by the prior, scored, and its trigger selected; the scored tables
    are accumulated into one output table. */
module ScanPipeline {
  import opened Results
  import opened Priors
  import opened ChirpMassScan
  import opened TimeScan
  import opened TriggerSelection

  /** One draw of the flow after inverse standardisation: the chirp-mass offset
      from the proxy, the coalescence time and the other parameters. */
  datatype Draw<P> = Draw(deltaChirpMass: real, geocentTime: real, rest: P)

  /** The parts of the model metadata the scan reads. */
  datatype ScanMetadata = ScanMetadata(chirpMassPrior: Bounds, chirpMassKernel: Bounds, geocentPrior: Bounds)

  /** What one pass of the loop computes: the batched network input, the
      sample table built from the flow's draws, the scored rows that survive
      the prior cut, and the trigger. */
  datatype IterationResult<X, C, P> = IterationResult(
    waveform: seq<X>, contextParameters: seq<C>, theta: seq<Sample<P>>,
    rows: seq<ResultRow<P>>, trigger: Trigger)

  /** Every offset's iteration, and the accumulated output table. */
  datatype ScanOutput<X, C, P> = ScanOutput(iterations: seq<IterationResult<X, C, P>>, thetaOut: Option<seq<ResultRow<P>>>)

  /** The scored table of every iteration, in order. */
  function Tables<X, C, P>(iterations: seq<IterationResult<X, C, P>>): (r: seq<seq<ResultRow<P>>>)
    ensures |r| == |iterations|
    ensures forall k | 0 <= k < |iterations| :: r[k] == iterations[k].rows
  {
    seq(|iterations|, k requires 0 <= k < |iterations| => iterations[k].rows)
  }

  /** Overlap factors `main` passes to the two grids. */
  const ChirpMassOverlap: real := 2.0
  const TimeOverlap: real := 1.0

  /** The sample table of one iteration: `delta_chirp_mass` is replaced by the
      absolute chirp mass; `pd.DataFrame` refuses columns of different lengths. */
  function SampleTable<P>(chirpMasses: seq<real>, numSamples: nat, draws: seq<Draw<P>>): (r: Result<seq<Sample<P>>>)
    ensures r.Success? ==> |r.value| == |draws|
    ensures r.Success? ==> forall j | 0 <= j < |draws| ::
      r.value[j].geocentTime == draws[j].geocentTime && r.value[j].rest == draws[j].rest
  {
    var deltas := seq(|draws|, j requires 0 <= j < |draws| => draws[j].deltaChirpMass);
    var chirpMass :- ReconstructChirpMasses(chirpMasses, numSamples, deltas);
    if |chirpMass| != |draws| then Failure(ShapeMismatch)
    else Success(seq(|draws|, j requires 0 <= j < |draws| => Sample(chirpMass[j], draws[j].geocentTime, draws[j].rest)))
  }

  /** When the flow returns one draw per network input row, the table is built
      and the chirp mass of row `j` is the proxy of row `j`'s block plus the
      row's drawn offset. */
  lemma SampleTableChirpMasses<P>(chirpMasses: seq<real>, numSamples: nat, draws: seq<Draw<P>>)
    requires |draws| == |chirpMasses| * numSamples
    ensures SampleTable(chirpMasses, numSamples, draws).Success?
    ensures forall j | 0 <= j < |draws| ::
      && 0 < numSamples && j / numSamples < |chirpMasses|
      && SampleTable(chirpMasses, numSamples, draws).value[j].chirpMass
         == chirpMasses[j / numSamples] + draws[j].deltaChirpMass
  {
    var deltas := seq(|draws|, j requires 0 <= j < |draws| => draws[j].deltaChirpMass);
    assert ReconstructChirpMasses(chirpMasses, numSamples, deltas).Success?;
  }

  /** The dataset one iteration works on: the loaded dataset, shifted when an
      offset is given. */
  function DatasetFor<W>(original: EventDataset<W>, dt: Option<real>, translate: (FrequencyDomain, W, real) -> W)
    : (r: Result<EventDataset<W>>)
    ensures r.Success? ==> r.value.settings.timeEvent == ShiftedTime(original.settings.timeEvent, dt)
    ensures dt.None? ==> r == Success(original)
    ensures dt.Some? ==> r == TimeTranslateEventDataset(original, dt.value, translate)
  {
    if dt.None? then Success(original) else TimeTranslateEventDataset(original, dt.value, translate)
  }

  /** The result rows of one iteration: every kept sample with its likelihood,
      SNR and the dataset's event time. */
  function ScoreRows<W, P>(data: EventData<W>, theta: seq<Sample<P>>, timeEvent: real,
                           score: (EventData<W>, Sample<P>) -> (real, real)): (r: seq<ResultRow<P>>)
    ensures |r| == |theta|
    ensures forall j | 0 <= j < |theta| ::
      && r[j].sample == theta[j]
      && (r[j].logLikelihood, r[j].snr) == score(data, theta[j])
      && r[j].timeEvent == timeEvent
  {
    seq(|theta|, j requires 0 <= j < |theta| =>
      ResultRow(theta[j], score(data, theta[j]).0, score(data, theta[j]).1, timeEvent))
  }

  /** `it` is what the loop body computes for offset `dt`: the network input is
      laid out block by block on the (shifted) dataset, the sample table is
      built from the draws of exactly that input, the rows are the samples of
      finite prior in table order, each scored on the shifted dataset, and
      the trigger is read from the first row of maximum log-likelihood. */
  ghost predicate IterationOutcome<W, X, C, P>(
    original: EventDataset<W>, dt: Option<real>, chirpMasses: seq<real>, numSamples: int,
    translate: (FrequencyDomain, W, real) -> W,
    preTransform: TransformInput<EventData<W>> -> NetworkInput<X, C>,
    drawSamples: (seq<X>, seq<C>) -> seq<Draw<P>>,
    lnProb: Sample<P> -> LogPrior,
    score: (EventData<W>, Sample<P>) -> (real, real),
    it: IterationResult<X, C, P>)
  {
    && DatasetFor(original, dt, translate).Success?
    && var ds := DatasetFor(original, dt, translate).value;
    && var t := ShiftedTime(original.settings.timeEvent, dt);
    && BlockLayout(it.waveform, it.contextParameters, preTransform, ds.data, chirpMasses, numSamples)
    && 0 <= numSamples
    && SampleTable(chirpMasses, numSamples, drawSamples(it.waveform, it.contextParameters)) == Success(it.theta)
    && |it.rows| == |KeepFinite(it.theta, lnProb)|
    && 0 < |it.rows|
    && (forall j | 0 <= j < |it.rows| ::
          && it.rows[j].sample == KeepFinite(it.theta, lnProb)[j]
          && lnProb(it.rows[j].sample).Finite?
          && (it.rows[j].logLikelihood, it.rows[j].snr) == score(ds.data, it.rows[j].sample)
          && it.rows[j].timeEvent == t)
    && IsFirstMax(LogLikelihoods(it.rows), it.trigger.row)
    && it.trigger.chirpMass == it.rows[it.trigger.row].sample.chirpMass
    && it.trigger.geocentTime == it.rows[it.trigger.row].sample.geocentTime
    && it.trigger.snr == it.rows[it.trigger.row].snr
    && it.trigger.gpsTime == t + it.trigger.geocentTime
  }

  /** The loop body for offset `dt` gets through: the shift is defined, the
      grid and the sample count give a network input, the flow's draws for that
      input form a sample table, and some sample has finite prior. */
  ghost predicate IterationSucceeds<W, X, C, P>(
    original: EventDataset<W>, dt: Option<real>, chirpMasses: seq<real>, numSamples: int,
    translate: (FrequencyDomain, W, real) -> W,
    preTransform: TransformInput<EventData<W>> -> NetworkInput<X, C>,
    drawSamples: (seq<X>, seq<C>) -> seq<Draw<P>>,
    lnProb: Sample<P> -> LogPrior)
  {
    && DatasetFor(original, dt, translate).Success?
    && 0 < |chirpMasses|
    && 0 <= numSamples
    && var batch := NetworkBatch(preTransform, DatasetFor(original, dt, translate).value.data, chirpMasses, numSamples);
    && var table := SampleTable(chirpMasses, numSamples, drawSamples(batch.0, batch.1));
    && table.Success?
    && 0 < |KeepFinite(table.value, lnProb)|
  }

  /** One pass of the loop body for offset `dt`. */
  method ScanIteration<W, X, C, P>(
    original: EventDataset<W>, dt: Option<real>, chirpMasses: seq<real>, numSamples: int,
    translate: (FrequencyDomain, W, real) -> W,
    preTransform: TransformInput<EventData<W>> -> NetworkInput<X, C>,
    drawSamples: (seq<X>, seq<C>) -> seq<Draw<P>>,
    lnProb: Sample<P> -> LogPrior,
    score: (EventData<W>, Sample<P>) -> (real, real))
    returns (r: Result<IterationResult<X, C, P>>)
    ensures dt.Some? && original.settings.duration == 0.0 ==> r == Failure(ZeroDivision)
    ensures |chirpMasses| == 0 ==> r.Failure?
    ensures numSamples < 0 ==> r.Failure?
    ensures r.Success? <==>
      IterationSucceeds(original, dt, chirpMasses, numSamples, translate, preTransform, drawSamples, lnProb)
    ensures r.Success? ==>
      IterationOutcome(original, dt, chirpMasses, numSamples, translate, preTransform, drawSamples, lnProb, score, r.value)
  {
    var ds :- DatasetFor(original, dt, translate);
    var input := GenerateDataForScan(preTransform, ds.data, chirpMasses, numSamples);
    if input.Failure? {
      return Failure(input.error);
    }
    var (waveform, contextParameters) := input.value;
    BlockLayoutUnique(waveform, contextParameters,
                      NetworkBatch(preTransform, ds.data, chirpMasses, numSamples).0,
                      NetworkBatch(preTransform, ds.data, chirpMasses, numSamples).1,
                      preTransform, ds.data, chirpMasses, numSamples);
    var draws := drawSamples(waveform, contextParameters);
    var theta :- SampleTable(chirpMasses, numSamples, draws);
    var filtered := PriorFilter(theta, lnProb);
    PriorFilterKeepsFiniteInOrder(theta, lnProb);
    var rows := ScoreRows(ds.data, filtered.theta, ds.settings.timeEvent, score);
    var trigger :- SelectTrigger(rows, ds.settings.timeEvent);
    r := Success(IterationResult(waveform, contextParameters, theta, rows, trigger));
  }

  /** The first `|iterations|` offsets got through, each with its recorded outcome. */
  ghost predicate Completed<W, X, C, P>(
    original: EventDataset<W>, times: seq<Option<real>>, chirpMasses: seq<real>, numSamples: int,
    translate: (FrequencyDomain, W, real) -> W,
    preTransform: TransformInput<EventData<W>> -> NetworkInput<X, C>,
    drawSamples: (seq<X>, seq<C>) -> seq<Draw<P>>,
    lnProb: Sample<P> -> LogPrior,
    score: (EventData<W>, Sample<P>) -> (real, real),
    iterations: seq<IterationResult<X, C, P>>)
  {
    && |iterations| <= |times|
    && forall i | 0 <= i < |iterations| ::
         && IterationSucceeds(original, times[i], chirpMasses, numSamples, translate, preTransform, drawSamples, lnProb)
         && IterationOutcome(original, times[i], chirpMasses, numSamples,
                             translate, preTransform, drawSamples, lnProb, score, iterations[i])
  }

  /** One more offset getting through extends the completed prefix. */
  lemma CompletedSnoc<W, X, C, P>(
    original: EventDataset<W>, times: seq<Option<real>>, chirpMasses: seq<real>, numSamples: int,
    translate: (FrequencyDomain, W, real) -> W,
    preTransform: TransformInput<EventData<W>> -> NetworkInput<X, C>,
    drawSamples: (seq<X>, seq<C>) -> seq<Draw<P>>,
    lnProb: Sample<P> -> LogPrior,
    score: (EventData<W>, Sample<P>) -> (real, real),
    iterations: seq<IterationResult<X, C, P>>, it: IterationResult<X, C, P>)
    requires Completed(original, times, chirpMasses, numSamples, translate, preTransform, drawSamples, lnProb, score, iterations)
    requires |iterations| < |times|
    requires IterationSucceeds(original, times[|iterations|], chirpMasses, numSamples,
                               translate, preTransform, drawSamples, lnProb)
    requires IterationOutcome(original, times[|iterations|], chirpMasses, numSamples,
                              translate, preTransform, drawSamples, lnProb, score, it)
    ensures Completed(original, times, chirpMasses, numSamples, translate, preTransform, drawSamples, lnProb, score,
                      iterations + [it])
  {
    var extended := iterations + [it];
    forall i | 0 <= i < |extended|
      ensures IterationSucceeds(original, times[i], chirpMasses, numSamples, translate, preTransform, drawSamples, lnProb)
      ensures IterationOutcome(original, times[i], chirpMasses, numSamples,
                               translate, preTransform, drawSamples, lnProb, score, extended[i])
    {
      if i < |iterations| {
        assert extended[i] == iterations[i];
      }
    }
  }

  /** `main`: the chirp-mass grid with overlap factor 2, the time offsets with
      overlap factor 1, and one iteration per offset, each on the dataset as
      loaded, so shifts never add up across iterations. */
  method ScanRun<W, X, C, P>(
    metadata: ScanMetadata, original: EventDataset<W>, timeScanRange: Option<(real, real)>, numSamples: int,
    translate: (FrequencyDomain, W, real) -> W,
    preTransform: TransformInput<EventData<W>> -> NetworkInput<X, C>,
    drawSamples: (seq<X>, seq<C>) -> seq<Draw<P>>,
    lnProb: Sample<P> -> LogPrior,
    score: (EventData<W>, Sample<P>) -> (real, real))
    returns (r: Result<ScanOutput<X, C, P>>)
    ensures r.Success? <==>
      && ScanChirpMasses(metadata.chirpMassPrior, metadata.chirpMassKernel, ChirpMassOverlap).Success?
      && ScanTimes(metadata.geocentPrior, timeScanRange, TimeOverlap).Success?
      && var chirpMasses := ScanChirpMasses(metadata.chirpMassPrior, metadata.chirpMassKernel, ChirpMassOverlap).value;
      && var times := ScanTimes(metadata.geocentPrior, timeScanRange, TimeOverlap).value;
      && forall k | 0 <= k < |times| ::
           IterationSucceeds(original, times[k], chirpMasses, numSamples, translate, preTransform, drawSamples, lnProb)
    ensures r.Success? ==>
      var chirpMasses := ScanChirpMasses(metadata.chirpMassPrior, metadata.chirpMassKernel, ChirpMassOverlap).value;
      var times := ScanTimes(metadata.geocentPrior, timeScanRange, TimeOverlap).value;
      && |r.value.iterations| == |times|
      && r.value.thetaOut == Accumulate(None, Tables(r.value.iterations))
      && forall k | 0 <= k < |times| ::
           IterationOutcome(original, times[k], chirpMasses, numSamples,
                            translate, preTransform, drawSamples, lnProb, score, r.value.iterations[k])
  {
    var chirpMasses :- ScanChirpMasses(metadata.chirpMassPrior, metadata.chirpMassKernel, ChirpMassOverlap);
    var times :- ScanTimes(metadata.geocentPrior, timeScanRange, TimeOverlap);
    var iterations: seq<IterationResult<X, C, P>> := [];
    var thetaOut: Option<seq<ResultRow<P>>> := None;
    var k := 0;
    while k < |times|
      invariant 0 <= k <= |times|
      invariant |iterations| == k
      invariant thetaOut == Accumulate(None, Tables(iterations))
      invariant Completed(original, times, chirpMasses, numSamples,
                          translate, preTransform, drawSamples, lnProb, score, iterations)
    {
      var attempt := ScanIteration(original, times[k], chirpMasses, numSamples,
                                   translate, preTransform, drawSamples, lnProb, score);
      if attempt.Failure? {
        // offset `k` is the one whose iteration does not get through
        assert !IterationSucceeds(original, times[k], chirpMasses, numSamples,
                                  translate, preTransform, drawSamples, lnProb);
        return Failure(attempt.error);
      }
      var it := attempt.value;
      AccumulateSnoc(None, Tables(iterations), it.rows);
      assert Tables(iterations + [it]) == Tables(iterations) + [it.rows];
      CompletedSnoc(original, times, chirpMasses, numSamples,
                    translate, preTransform, drawSamples, lnProb, score, iterations, it);
      thetaOut := AppendTable(thetaOut, it.rows);
      iterations := iterations + [it];
      k := k + 1;
    }
    r := Success(ScanOutput(iterations, thetaOut));
  }
}

=== FILE: time_scan.dfy ===
/** The time scan of `binary_neutron_stars/scripts/chirp_mass_scan.py`: the
    grid of trial time offsets and the bookkeeping of an event dataset when it
    is shifted by one of them. */
module TimeScan {
  import opened Results
  import opened Numerics
  import opened Priors

  /** The settings of an event dataset that the scan reads or updates. */
  datatype EventSettings = EventSettings(fMin: real, fMax: real, duration: real, timeEvent: real)

  /** Per-detector strain and noise spectra, keyed by detector name. */
  datatype EventData<W> = EventData(waveform: map<string, W>, asds: map<string, W>)

  datatype EventDataset<W> = EventDataset(data: EventData<W>, settings: EventSettings)

  /** The uniform frequency grid used for the phase rotation. */
  datatype FrequencyDomain = FrequencyDomain(fMin: real, fMax: real, deltaF: real)

  /** The event time after an optional shift by `dt`. */
  function ShiftedTime(timeEvent: real, dt: Option<real>): real {
    if dt.None? then timeEvent else timeEvent - dt.value
  }

  /** `time_translate_event_dataset`, returning the shifted copy instead of
      updating in place.  `translate` is the domain's phase rotation of one
      strain array. */
  function TimeTranslateEventDataset<W>(
    ds: EventDataset<W>, dt: real, translate: (FrequencyDomain, W, real) -> W)
    : (r: Result<EventDataset<W>>)
    ensures ds.settings.duration == 0.0 <==> r.Failure?
    ensures r.Failure? ==> r.error == ZeroDivision
    ensures r.Success? ==> r.value.settings == ds.settings.(timeEvent := ds.settings.timeEvent - dt)
    ensures r.Success? ==> r.value.data.asds == ds.data.asds
    ensures r.Success? ==> r.value.data.waveform.Keys == ds.data.waveform.Keys
    ensures r.Success? ==> forall k | k in ds.data.waveform ::
      exists domain: FrequencyDomain ::
        && domain.fMin == ds.settings.fMin && domain.fMax == ds.settings.fMax
        && domain.deltaF * ds.settings.duration == 1.0
        && r.value.data.waveform[k] == translate(domain, ds.data.waveform[k], dt)
  {
    var s := ds.settings;
    if s.duration == 0.0 then Failure(ZeroDivision)
    else
      var domain := FrequencyDomain(s.fMin, s.fMax, 1.0 / s.duration);
      var waveform := map k | k in ds.data.waveform :: translate(domain, ds.data.waveform[k], dt);
      Success(EventDataset(ds.data.(waveform := waveform), s.(timeEvent := s.timeEvent - dt)))
  }

  /** Shifting by `a` and then by `b` leaves the same settings as one shift by `a + b`. */
  lemma TranslationsCompose<W>(ds: EventDataset<W>, a: real, b: real, translate: (FrequencyDomain, W, real) -> W)
    requires ds.settings.duration != 0.0
    ensures TimeTranslateEventDataset(ds, a, translate).Success?
    ensures TimeTranslateEventDataset(TimeTranslateEventDataset(ds, a, translate).value, b, translate).Success?
    ensures TimeTranslateEventDataset(TimeTranslateEventDataset(ds, a, translate).value, b, translate).value.settings
            == TimeTranslateEventDataset(ds, a + b, translate).value.settings
  {
  }

  /** Shifting by `dt` and back by `-dt` restores the settings and the detectors. */
  lemma TranslationUndone<W>(ds: EventDataset<W>, dt: real, translate: (FrequencyDomain, W, real) -> W)
    requires ds.settings.duration != 0.0
    ensures TimeTranslateEventDataset(ds, dt, translate).Success?
    ensures var back := TimeTranslateEventDataset(TimeTranslateEventDataset(ds, dt, translate).value, -dt, translate);
      && back.Success?
      && back.value.settings == ds.settings
      && back.value.data.waveform.Keys == ds.data.waveform.Keys
  {
  }

  /** The spacing that keeps the trial windows overlapping: the width of the
      coalescence-time prior divided by the overlap factor. */
  function TimeStep(geocentPrior: Bounds, overlapFactor: real): real
    requires overlapFactor != 0.0
  {
    geocentPrior.Range() / overlapFactor
  }

  /** Every point of a linspace, as a time offset. */
  function Offsets(points: seq<real>): (r: seq<Option<real>>)
    ensures |r| == |points|
    ensures forall i | 0 <= i < |points| :: r[i] == Some(points[i])
  {
    seq(|points|, i requires 0 <= i < |points| => Some(points[i]))
  }

  /** `numpy.linspace(tMin, tMax, n)` as time offsets: evenly spaced from
      `tMin` to `tMax`. */
  function ScanOffsets(tMin: real, tMax: real, n: int): (r: Result<seq<Option<real>>>)
    ensures r.Failure? <==> n < 0
    ensures r.Failure? ==> r.error == NegativeCount
    ensures r.Success? ==> |r.value| == n && forall i | 0 <= i < n :: r.value[i].Some?
    ensures r.Success? && n >= 1 ==> r.value[0] == Some(tMin)
    ensures r.Success? && n >= 2 ==> r.value[n - 1] == Some(tMax)
    ensures r.Success? && n >= 2 ==>
      forall i | 0 <= i < n :: r.value[i] == Some(tMin + i as real * Step(tMin, tMax, n))
  {
    var points :- Linspace(tMin, tMax, n);
    var t := Offsets(points);
    OffsetsOfLinspace(tMin, tMax, n, points, t);
    Success(t)
  }

  /** The offsets built from a linspace are its points, with their spacing. */
  lemma OffsetsOfLinspace(start: real, stop: real, n: int, points: seq<real>, t: seq<Option<real>>)
    requires Linspace(start, stop, n) == Success(points) && t == Offsets(points)
    ensures |t| == n
    ensures n >= 2 ==> forall i | 0 <= i < n :: t[i] == Some(start + i as real * Step(start, stop, n))
  {
    if n >= 2 {
      forall i | 0 <= i < n
        ensures t[i] == Some(start + i as real * Step(start, stop, n))
      {
        assert t[i] == Some(points[i]);
      }
    }
  }

  /** The `else` branch of `get_scan_times`: `int((tMax - tMin) / step) + 1`
      evenly spaced offsets from `tMin` to `tMax`. */
  function RangeTimes(geocentPrior: Bounds, tMin: real, tMax: real, overlapFactor: real)
    : (r: Result<seq<Option<real>>>)
    ensures overlapFactor == 0.0 || geocentPrior.Range() == 0.0 ==> r == Failure(ZeroDivision)
    ensures overlapFactor != 0.0 && geocentPrior.Range() != 0.0 ==>
      var x := (tMax - tMin) / TimeStep(geocentPrior, overlapFactor);
      && (r.Failure? <==> x <= -2.0)
      && (r.Failure? ==> r.error == NegativeCount)
      && (r.Success? ==> |r.value| == Trunc(x) + 1)
      && (r.Success? && Trunc(x) + 1 >= 2 ==>
            forall i | 0 <= i < Trunc(x) + 1 :: r.value[i] == Some(tMin + i as real * Step(tMin, tMax, Trunc(x) + 1)))
    ensures r.Success? ==> forall i | 0 <= i < |r.value| :: r.value[i].Some?
    ensures r.Success? && |r.value| >= 1 ==> r.value[0] == Some(tMin)
    ensures r.Success? && |r.value| >= 2 ==> r.value[|r.value| - 1] == Some(tMax)
  {
    if overlapFactor == 0.0 || geocentPrior.Range() == 0.0 then Failure(ZeroDivision)
    else ScanOffsets(tMin, tMax, Trunc((tMax - tMin) / TimeStep(geocentPrior, overlapFactor)) + 1)
  }

  /** `get_scan_times`: the single untranslated run `[None]` without a scan
      range, otherwise the offsets of the range. */
  function ScanTimes(geocentPrior: Bounds, timeScanRange: Option<(real, real)>, overlapFactor: real)
    : (r: Result<seq<Option<real>>>)
    ensures timeScanRange.None? ==> r == Success([None])
    ensures timeScanRange.Some? ==>
      r == RangeTimes(geocentPrior, timeScanRange.value.0, timeScanRange.value.1, overlapFactor)
  {
    match timeScanRange
    case None => Success([None])
    case Some((tMin, tMax)) => RangeTimes(geocentPrior, tMin, tMax, overlapFactor)
  }

  /** Because the count truncates, neighbouring offsets of an ascending range are
      at least one `TimeStep` apart: with overlap factor one the trial windows
      touch at best and can leave gaps. */
  lemma TimeGridSpacingAtLeastStep(geocentPrior: Bounds, tMin: real, tMax: real, overlapFactor: real, i: int)
    requires 0.0 < geocentPrior.Range() && 0.0 < overlapFactor && tMin <= tMax
    requires ScanTimes(geocentPrior, Some((tMin, tMax)), overlapFactor).Success?
    requires 0 <= i < |ScanTimes(geocentPrior, Some((tMin, tMax)), overlapFactor).value| - 1
    ensures var t := ScanTimes(geocentPrior, Some((tMin, tMax)), overlapFactor).value;
      t[i].Some? && t[i + 1].Some? && t[i + 1].value - t[i].value >= TimeStep(geocentPrior, overlapFactor)
  {
    var t := ScanTimes(geocentPrior, Some((tMin, tMax)), overlapFactor).value;
    var n := |t|;
    var step := TimeStep(geocentPrior, overlapFactor);
    assert step > 0.0;
    var x := (tMax - tMin) / step;
    assert x * step == tMax - tMin;
    assert x >= 0.0;
    assert n == Trunc(x) + 1;
    assert t == ScanOffsets(tMin, tMax, n).value;
    var offsets := Linspace(tMin, tMax, n).value;
    LinspaceUniform(tMin, tMax, n, i);
    OffsetsOfLinspace(tMin, tMax, n, offsets, t);
    assert t[i] == Some(offsets[i]) && t[i + 1] == Some(offsets[i + 1]);
    var d := (n - 1) as real;
    assert d <= x;
    SpacingAtLeastStep(tMax - tMin, step, d);
  }

  /** Spreading a range over at most `range / step` gaps makes each gap at least `step`. */
  lemma SpacingAtLeastStep(range: real, step: real, d: real)
    requires 0.0 < step && 0.0 < d && d <= range / step
    ensures range / d >= step
  {
    var x := range / step;
    assert x * step == range;
    var s := range / d;
    assert s * d == range;
    assert (s - step) * d == (x - d) * step;
    RealMulSign(x - d, step);
    RealMulSign(s - step, d);
  }

  /** A coalescence-time prior of width 0.2 and the range (-0.1, 0.1) give the
      two offsets -0.1 and 0.1. */
  lemma TimeGridExample()
    ensures ScanTimes(Bounds(-0.1, 0.1), Some((-0.1, 0.1)), 1.0) == Success([Some(-0.1), Some(0.1)])
  {
    var r := ScanTimes(Bounds(-0.1, 0.1), Some((-0.1, 0.1)), 1.0);
    assert Trunc(0.2 / 0.2) == 1;
    assert r.value == [Some(-0.1), Some(0.1)];
  }

  /** The range (0, 0.3) with the same prior gives the offsets 0 and 0.3, whose
      windows [-0.1, 0.1] and [0.2, 0.4] miss the times between 0.1 and 0.2. */
  lemma TimeGridGapExample()
    ensures var r := ScanTimes(Bounds(-0.1, 0.1), Some((0.0, 0.3)), 1.0);
      && r == Success([Some(0.0), Some(0.3)])
      && r.value[1].value - r.value[0].value > Bounds(-0.1, 0.1).Range()
  {
    var r := ScanTimes(Bounds(-0.1, 0.1), Some((0.0, 0.3)), 1.0);
    assert (0.3 - 0.0) / TimeStep(Bounds(-0.1, 0.1), 1.0) == 1.5;
    assert Trunc(1.5) == 1;
    assert r.value == [Some(0.0), Some(0.3)];
  }
}

=== FILE: trigger_selection.dfy ===
/** The steps of the scan loop that follow sampling, once the prior and the
    likelihood are treated as given functions: the prior-support filter,
    trigger selection by maximum likelihood, and the accumulation of result
    tables across time offsets. */
module TriggerSelection {
  import opened Results
  import opened Numerics
  import opened Priors

  /** One row of the sample table: the reconstructed chirp mass, the
      coalescence time relative to the event time, and the other inferred parameters. */
  datatype Sample<P> = Sample(chirpMass: real, geocentTime: real, rest: P)

  /** `np.where(log_prior > -np.inf)[0]`, the positions with finite log-prior. */
  function SupportIndices(logPrior: seq<LogPrior>): (r: seq<nat>)
    ensures forall j | 0 <= j < |r| :: r[j] < |logPrior| && logPrior[r[j]].Finite?
    ensures forall i | 0 <= i < |logPrior| && logPrior[i].Finite? :: i in r
    ensures forall j, k | 0 <= j < k < |r| :: r[j] < r[k]
    decreases |logPrior|
  {
    if |logPrior| == 0 then []
    else
      var last := |logPrior| - 1;
      var prefix := SupportIndices(logPrior[..last]);
      prefix + (if logPrior[last].Finite? then [last] else [])
  }

  /** The table after the prior cut, with the log-prior column kept aligned. */
  datatype Filtered<P> = Filtered(theta: seq<Sample<P>>, logPrior: seq<real>)

  /** `prior.ln_prob(theta)`: the log-prior of every row. */
  function LogPriors<P>(theta: seq<Sample<P>>, lnProb: Sample<P> -> LogPrior): (r: seq<LogPrior>)
    ensures |r| == |theta|
    ensures forall i | 0 <= i < |theta| :: r[i] == lnProb(theta[i])
  {
    seq(|theta|, i requires 0 <= i < |theta| => lnProb(theta[i]))
  }

  /** `theta.iloc[indices]`: the rows at the given positions, in the given order. */
  function Gather<T>(theta: seq<T>, indices: seq<nat>): (r: seq<T>)
    requires forall j | 0 <= j < |indices| :: indices[j] < |theta|
    ensures |r| == |indices|
    ensures forall j | 0 <= j < |indices| :: r[j] == theta[indices[j]]
  {
    seq(|indices|, j requires 0 <= j < |indices| => theta[indices[j]])
  }

  /** `theta.iloc[indices]` and `log_prior[indices]` for the finite-prior indices. */
  function PriorFilter<P>(theta: seq<Sample<P>>, lnProb: Sample<P> -> LogPrior): (r: Filtered<P>)
    ensures |r.theta| == |r.logPrior| <= |theta|
    ensures forall j | 0 <= j < |r.theta| :: lnProb(r.theta[j]) == Finite(r.logPrior[j])
  {
    var logPrior := LogPriors(theta, lnProb);
    var indices := SupportIndices(logPrior);
    SupportIndicesBounded(logPrior);
    Filtered(Gather(theta, indices),
             seq(|indices|, j requires 0 <= j < |indices| => logPrior[indices[j]].value))
  }

  /** Strictly increasing indices below `n` number at most `n`. */
  lemma SupportIndicesBounded(logPrior: seq<LogPrior>)
    ensures |SupportIndices(logPrior)| <= |logPrior|
    decreases |logPrior|
  {
    if |logPrior| > 0 {
      SupportIndicesBounded(logPrior[..|logPrior| - 1]);
    }
  }

  /** Reference filter: the rows of finite log-prior, in their original order. */
  function KeepFinite<P>(theta: seq<Sample<P>>, lnProb: Sample<P> -> LogPrior): seq<Sample<P>>
    decreases |theta|
  {
    if |theta| == 0 then []
    else (if lnProb(theta[0]).Finite? then [theta[0]] else []) + KeepFinite(theta[1..], lnProb)
  }

  lemma {:induction false} KeepFiniteAppend<P>(a: seq<Sample<P>>, b: seq<Sample<P>>, lnProb: Sample<P> -> LogPrior)
    ensures KeepFinite(a + b, lnProb) == KeepFinite(a, lnProb) + KeepFinite(b, lnProb)
    decreases |a|
  {
    if |a| > 0 {
      assert (a + b)[0] == a[0];
      assert (a + b)[1..] == a[1..] + b;
      KeepFiniteAppend(a[1..], b, lnProb);
    } else {
      assert a + b == b;
    }
  }

  /** Gathering positions of a prefix followed by the last position splits into
      a gather over the prefix and the last row. */
  lemma GatherSnoc<T>(theta: seq<T>, prefix: seq<nat>, tail: seq<nat>)
    requires 0 < |theta|
    requires forall j | 0 <= j < |prefix| :: prefix[j] < |theta| - 1
    requires tail == [] || tail == [|theta| - 1]
    ensures Gather(theta, prefix + tail) == Gather(theta[..|theta| - 1], prefix) + Gather(theta, tail)
  {
  }

  /** The index-based cut keeps exactly the rows of finite log-prior, in their
      original order: the same table as the reference filter. */
  lemma {:induction false} PriorFilterKeepsFiniteInOrder<P>(theta: seq<Sample<P>>, lnProb: Sample<P> -> LogPrior)
    ensures PriorFilter(theta, lnProb).theta == KeepFinite(theta, lnProb)
    decreases |theta|
  {
    if |theta| > 0 {
      var last := |theta| - 1;
      var front := theta[..last];
      PriorFilterKeepsFiniteInOrder(front, lnProb);
      var logPrior := LogPriors(theta, lnProb);
      assert logPrior[..last] == LogPriors(front, lnProb);
      var prefix := SupportIndices(LogPriors(front, lnProb));
      var tail := if logPrior[last].Finite? then [last] else [];
      assert SupportIndices(logPrior) == prefix + tail;
      GatherSnoc(theta, prefix, tail);
      assert theta == front + [theta[last]];
      KeepFiniteAppend(front, [theta[last]], lnProb);
      assert KeepFinite([theta[last]], lnProb) == Gather(theta, tail);
    }
  }

  /** `k` is the position `np.argmax` reports: a maximum, and the first one. */
  ghost predicate IsFirstMax(s: seq<real>, k: int) {
    && 0 <= k < |s|
    && (forall j | 0 <= j < |s| :: s[j] <= s[k])
    && (forall j | 0 <= j < k :: s[j] < s[k])
  }

  /** `np.argmax` on a one-dimensional array. */
  function ArgMax(s: seq<real>): (r: Result<nat>)
    ensures r.Failure? <==> |s| == 0
    ensures r.Failure? ==> r.error == EmptyArgmax
    ensures r.Success? ==> IsFirstMax(s, r.value)
    decreases |s|
  {
    if |s| == 0 then Failure(EmptyArgmax)
    else if |s| == 1 then Success(0)
    else
      var last := |s| - 1;
      var k := ArgMax(s[..last]).value;
      if s[last] > s[k] then Success(last) else Success(k)
  }

  /** At most one position is the first maximum. */
  lemma FirstMaxUnique(s: seq<real>, a: int, b: int)
    requires IsFirstMax(s, a) && IsFirstMax(s, b)
    ensures a == b
  {
    var atA, atB := s[a], s[b];
  }

  /** Log-likelihoods 1, 5, 3, 9, 2 select row 3. */
  lemma ArgMaxExample()
    ensures ArgMax([1.0, 5.0, 3.0, 9.0, 2.0]) == Success(3)
  {
    var s := [1.0, 5.0, 3.0, 9.0, 2.0];
    assert IsFirstMax(s, 3);
    FirstMaxUnique(s, 3, ArgMax(s).value);
  }

  /** A scored row of the output table: the sample, its likelihood and SNR,
      and the event time of the dataset it was scored against. */
  datatype ResultRow<P> = ResultRow(sample: Sample<P>, logLikelihood: real, snr: real, timeEvent: real)

  /** The reported trigger: the row it was read from, and what is printed. */
  datatype Trigger = Trigger(row: nat, chirpMass: real, geocentTime: real, snr: real, gpsTime: real)

  function LogLikelihoods<P>(rows: seq<ResultRow<P>>): (r: seq<real>)
    ensures |r| == |rows|
    ensures forall j | 0 <= j < |rows| :: r[j] == rows[j].logLikelihood
  {
    seq(|rows|, j requires 0 <= j < |rows| => rows[j].logLikelihood)
  }

  /** The trigger of one scan: chirp mass, coalescence time and SNR all read at
      the first row of maximum log-likelihood; the GPS time adds the event time. */
  function SelectTrigger<P>(rows: seq<ResultRow<P>>, timeEvent: real): (r: Result<Trigger>)
    ensures r.Failure? <==> |rows| == 0
    ensures r.Failure? ==> r.error == EmptyArgmax
    ensures r.Success? ==>
      && IsFirstMax(LogLikelihoods(rows), r.value.row)
      && r.value.chirpMass == rows[r.value.row].sample.chirpMass
      && r.value.geocentTime == rows[r.value.row].sample.geocentTime
      && r.value.snr == rows[r.value.row].snr
      && r.value.gpsTime == timeEvent + r.value.geocentTime
  {
    var k :- ArgMax(LogLikelihoods(rows));
    var best := rows[k];
    Success(Trigger(k, best.sample.chirpMass, best.sample.geocentTime, best.snr,
                    timeEvent + best.sample.geocentTime))
  }

  /** `log_likelihoods + log_prior`, the posterior score used only for plotting. */
  function LogProbs(logLikelihoods: seq<real>, logPrior: seq<real>): (r: Result<seq<real>>)
    ensures r.Failure? <==> |logLikelihoods| != |logPrior| && |logLikelihoods| != 1 && |logPrior| != 1
    ensures |logLikelihoods| == |logPrior| ==>
      && r.Success? && |r.value| == |logPrior|
      && forall j | 0 <= j < |logPrior| :: r.value[j] == logLikelihoods[j] + logPrior[j]
  {
    AddBroadcast(logLikelihoods, logPrior)
  }

  /** Ranking ignores the prior: with log-likelihoods 1, 2 and log-priors 5, 0
      the trigger is row 1 although the posterior score is largest at row 0. */
  lemma RankingIgnoresLogPrior<P>(a: Sample<P>, b: Sample<P>)
    ensures var rows := [ResultRow(a, 1.0, 0.0, 0.0), ResultRow(b, 2.0, 0.0, 0.0)];
      && SelectTrigger(rows, 0.0).Success?
      && SelectTrigger(rows, 0.0).value.row == 1
      && LogProbs(LogLikelihoods(rows), [5.0, 0.0]) == Success([6.0, 2.0])
      && ArgMax([6.0, 2.0]) == Success(0)
  {
    var rows := [ResultRow(a, 1.0, 0.0, 0.0), ResultRow(b, 2.0, 0.0, 0.0)];
    assert LogLikelihoods(rows) == [1.0, 2.0];
    assert IsFirstMax([1.0, 2.0], 1);
    FirstMaxUnique([1.0, 2.0], 1, SelectTrigger(rows, 0.0).value.row);
    assert LogProbs([1.0, 2.0], [5.0, 0.0]).value == [6.0, 2.0];
    assert IsFirstMax([6.0, 2.0], 0);
    FirstMaxUnique([6.0, 2.0], 0, ArgMax([6.0, 2.0]).value);
  }

  /** One step of the accumulation: the first table starts the output, later
      ones are concatenated after it. */
  function AppendTable<R>(acc: Option<seq<R>>, table: seq<R>): (r: Option<seq<R>>)
    ensures r.Some?
    ensures acc.None? ==> r.value == table
    ensures acc.Some? ==>
      |r.value| == |acc.value| + |table| && r.value[..|acc.value|] == acc.value && r.value[|acc.value|..] == table
  {
    if acc.None? then Some(table) else Some(acc.value + table)
  }

  /** `theta_out` after the loop over time offsets, from the given start value. */
  function Accumulate<R>(acc: Option<seq<R>>, tables: seq<seq<R>>): (r: Option<seq<R>>)
    ensures r.None? <==> acc.None? && |tables| == 0
    ensures acc.Some? ==> acc.value <= r.value
    decreases |tables|
  {
    if |tables| == 0 then acc else Accumulate(AppendTable(acc, tables[0]), tables[1..])
  }

  lemma {:induction false} AccumulateFrom<R>(a: seq<R>, tables: seq<seq<R>>)
    ensures Accumulate(Some(a), tables) == Some(a + Concat(tables))
    decreases |tables|
  {
    if |tables| > 0 {
      AccumulateFrom(a + tables[0], tables[1..]);
      assert a + tables[0] + Concat(tables[1..]) == a + (tables[0] + Concat(tables[1..]));
    } else {
      assert a + [] == a;
    }
  }

  /** The output table is absent exactly when no time offset was scanned, and
      otherwise holds every offset's rows, offset by offset, in order. */
  lemma {:induction false} AccumulateIsConcat<R>(tables: seq<seq<R>>)
    ensures Accumulate(None, tables) == if |tables| == 0 then None else Some(Concat(tables))
  {
    if |tables| > 0 {
      AccumulateFrom(tables[0], tables[1..]);
    }
  }

  /** Adding one more table at the end extends the accumulated output by it. */
  lemma {:induction false} AccumulateSnoc<R>(acc: Option<seq<R>>, tables: seq<seq<R>>, table: seq<R>)
    ensures Accumulate(acc, tables + [table]) == AppendTable(Accumulate(acc, tables), table)
    decreases |tables|
  {
    if |tables| > 0 {
      assert (tables + [table])[1..] == tables[1..] + [table];
      AccumulateSnoc(AppendTable(acc, tables[0]), tables[1..], table);
    } else {
      assert tables + [table] == [table];
    }
  }
}
